=== FILE: README.md ===
# Currency swap engine, wallet prioritiser and sum-to-n — a Dafny model

This project models the logic of a small TypeScript/JavaScript repository.
It has three parts.

- **The currency swap page (problem2).**
  - The price catalog: a raw `{currency, date, price}` feed is reduced to one token per currency and sorted by symbol.
  - The conversion maths: exchange rate, converted amount and display formatting.
  - The balance lookup.
  - The amount-input grammar `^\d*\.?\d*$` and the field's display flags.
  - The token picker's search filter and its open/closed state.
  - The swap form controller and its submission flow. These are the validation rules, the derived "you receive" amount, the Preview gate, swapping direction, MAX, preview, confirm, settlement, cancel and the timed reset.
- **The wallet-balance list (problem3).** Balances are kept if their blockchain is known and their amount is positive. They are stably sorted by blockchain priority and valued in USD.
- **Three ways to sum 1..n (problem1).**

Modules and files:

| file | module | models |
|---|---|---|
| seqs.dfy | `Seqs` | the subsequence relation shared by the list filters |
| wrappers.dfy | `Wrappers` | `Option`, used for `undefined`, `null`, `NaN` and "not found" |
| text.dfy | `Text` | ASCII `toLowerCase` and `toUpperCase`; `includes` (executable, and proved equal to the "some window equals" definition) |
| js_number.dfy | `JsNumber` | `Number.prototype.toFixed` and `parseFloat` over exact reals |
| stable_sort.dfy | `StableSort` | `Array.prototype.sort` with a consistent comparator. It is a stable insertion sort, proved sorted, a permutation and stable. |
| token_service.dfy | `TokenService` | catalog reduction, filter, icon URL, sort, exchange rate, conversion |
| number_format.dfy | `NumberFormat` | `formatNumber` and the trailing-zero regular expression |
| wallet_service.dfy | `WalletService` | `getTokenBalance` |
| currency_input.dfy | `CurrencyInput` | `handleChange`, `showBalance`, `isLowBalance`, `hasInsufficientBalance` |
| currency_selector.dfy | `CurrencySelector` | `filteredTokens`, `handleSelect`, toggle, search and outside click |
| swap_form.dfy | `SwapForm` | `App.tsx`: validation rules, toAmount effect, `isDisabled`, and the event-driven page state (the wallet is a parameter) |
| wallet_page.dfy | `WalletPage` | `getPriority` and the filter/sort/map pipeline of `sortedAndFormattedBalances` |
| sum_to_n.dfy | `SumToN` | `sum_to_n_a`, `sum_to_n_b`, `sum_to_n_c` |

Modelling choices:

- **Numbers.** Prices, amounts and rates are exact `real`s.
- **`toFixed`.** Modelled concretely. The magnitude is rounded half up at the requested number of decimals, written with exactly that many decimals, and prefixed with "-" when negative.
- **`parseFloat`.** Modelled concretely for text that starts with digits, an optional point and digits. That covers every text the amount field can hold and every text `formatNumber` produces for a non-negative value. Anything else reads as `NaN` (`None`).
- **`localeCompare`.** An arbitrary comparator `symbolLe` that is total and transitive.
- **`toString` and `toLocaleString`.** Uninterpreted functions in an `Env` record.
- **Dates.** Integer timestamps.
- **Page state.** A record. Each user action, the resolution of the simulated settlement and the firing of the reset timer is one event. `SwapForm.Step` runs an event to completion, including the effect that re-derives the received amount.
- **Validation errors.** These are held as state, as the form library holds them.
  - A keystroke in the amount field re-runs the amount rules.
  - A pick in the From selector re-runs every rule (`trigger()`).
  - A pick in the To selector re-runs the toToken rules.
  - `setValue` (swap direction, MAX, reset) runs none.
  - MAX clears the amount error.
  - Preview re-runs every rule and opens the modal when all pass; it never closes an open modal.

Behaviours kept as the code has them:

- **Date ties.** The first record seen is kept on a date tie, because replacement needs a strictly later date.
- **Reset timer.** It is never cancelled.
- **Same-token check.** `isDisabled` ignores the toToken error. A same-token form therefore has an enabled Preview button that never opens the modal.
- **Non-numeric amounts.** A non-empty amount that is not a number passes the balance rule.
- **Preview while submitting.** The Preview button is also disabled while a submission is in flight, because the button turns `loading` into `disabled`.

## Model

| member | source | states |
|---|---|---|
| TokenService.IndexOf | src/problem2/src/services/tokenService.ts:22 | `tokenMap.get`: the entry found has the currency asked for; no entry means no entry has it |
| TokenService.LatestByCurrencyReduces | src/problem2/src/services/tokenService.ts:19-26 | `LatestByCurrency`: after the `forEach`, there is exactly one entry per currency of the feed, and each entry is that currency's winning record: the latest date, the first one seen on a tie |
| TokenService.LatestByCurrencyFirstSeen | src/problem2/src/services/tokenService.ts:19-26 | `LatestByCurrency`: the `Map` keeps insertion order, so the entries list the currencies in the order of their first record in the feed; a later record of a currency replaces its entry in place |
| TokenService.UpsertCurrencies | src/problem2/src/services/tokenService.ts:21-26 | `Upsert`: one `forEach` step adds the record's currency to the map's keys and removes none |
| TokenService.UpsertUnique | src/problem2/src/services/tokenService.ts:21-26 | `Upsert`: one `forEach` step keeps at most one entry per currency |
| TokenService.UpsertOnlyWinners | src/problem2/src/services/tokenService.ts:21-26 | `Upsert`: after one more record, every entry is still the winning record of its currency in the longer feed |
| TokenService.ReducesToWinner | src/problem2/src/services/tokenService.ts:19-26 | every currency's winning record is among the reduced entries |
| TokenService.WinnerUnique | src/problem2/src/services/tokenService.ts:23 | a currency has at most one winning record |
| TokenService.TieKeepsFirstSeen | src/problem2/src/services/tokenService.ts:21-26 | of two records with the same currency and date, the first one seen is kept and the second does not win |
| TokenService.PricedOnly | src/problem2/src/services/tokenService.ts:30 | a record survives the filter iff it has a positive price; order and multiplicity are kept (the result is a subsequence of the input, each record kept as often as it occurs) |
| TokenService.ToToken | src/problem2/src/services/tokenService.ts:31-35 | a token carries the record's currency as symbol, the record's price (which is positive), and the icon URL `base + "/" + symbol + ".svg"` |
| TokenService.Catalog | src/problem2/src/services/tokenService.ts:19-36 | the catalog holds exactly the tokens of winning records that have a positive price. Symbols are unique. Tokens are ordered by the symbol comparator; tokens whose symbols it ranks equal keep the map's insertion order, which is the feed order of first appearance (LatestByCurrencyFirstSeen). Every price is positive and every icon URL is synthesised from the symbol. |
| TokenService.CatalogListsCurrency | src/problem2/src/services/tokenService.ts:21-30 | a currency is listed iff its winning record has a positive price, so a later record without a price hides earlier priced ones |
| TokenService.BySymbolIsPreorder | src/problem2/src/services/tokenService.ts:36 | comparing tokens by symbol is a consistent comparator when the string comparison is |
| StableSort.Sort | src/problem2/src/services/tokenService.ts:36 | the sorted list is a permutation of the input and is ordered by the comparator. Elements the comparator ranks equal keep their input order. |
| TokenService.ExchangeRate | src/problem2/src/services/tokenService.ts:48-53 | the rate is 0 when the source price is 0; otherwise rate × target price = source price |
| TokenService.ExchangeRateReciprocal | src/problem2/src/services/tokenService.ts:48-53 | the rates in the two directions multiply to 1 |
| TokenService.ConvertAmount | src/problem2/src/services/tokenService.ts:58-65 | the converted amount has the same value in the common price unit: result × target price = amount × source price |
| TokenService.ConvertRoundTrip | src/problem2/src/services/tokenService.ts:58-65 | converting there and back returns the original amount |
| JsNumber.RoundHalfUp | src/problem2/src/services/tokenService.ts:79 | `toFixed`'s rounding lands within half a unit of the scaled value, rounding a tie up |
| JsNumber.ToFixedDecimals | src/problem2/src/services/tokenService.ts:79 | `ToFixed` with at least one decimal writes the rounded magnitude as digits, one point and exactly that many digits after it, with no leading zero before the point except a lone "0", and a leading "-" for a negative value |
| JsNumber.ParseFloat | src/problem2/src/App.tsx:87 | `parseFloat` gives NaN iff the text starts neither with a digit nor with a point followed by a digit; any number it reads is non-negative |
| JsNumber.ParseFixedDigits | src/problem2/src/services/tokenService.ts:75-79 | `toFixed` output read back with `parseFloat` is the rounded integer divided by 10^decimals |
| NumberFormat.RoundToError | src/problem2/src/services/tokenService.ts:79 | the value `toFixed` displays is within half a unit in the last decimal of the original value |
| NumberFormat.ParseToFixed | src/problem2/src/services/tokenService.ts:75-79 | reading back the output of `toFixed` on a non-negative number gives the number rounded to that many decimals |
| NumberFormat.StripTrailingZeros | src/problem2/src/services/tokenService.ts:82 | `replace` only removes a suffix: the result is a prefix of the input |
| NumberFormat.StripTrailingZerosLeftmost | src/problem2/src/services/tokenService.ts:82 | `replace(/\.?0+$/, '')` removes exactly the leftmost suffix matching `\.?0+`. Nothing is removed when no suffix matches. |
| NumberFormat.StripFraction | src/problem2/src/services/tokenService.ts:79-82 | with at least one decimal, the trailing zeros of the fraction are removed, and then the point if nothing is left after it. The integer part is unchanged. |
| NumberFormat.FormatNumberPrefix | src/problem2/src/services/tokenService.ts:70-83 | `FormatNumber`: 0 is shown as "0". Any other value is shown as a prefix of its `toFixed` output at the display decimals. Below 0.01, negative values included, the 8-decimal `toFixed` text is shown whole, with no zeros stripped; a negative value keeps its leading "-". |
| NumberFormat.FormatNumberRoundTrip | src/problem2/src/services/tokenService.ts:70-83 | `FormatNumber`: for maxDecimals ≥ 1, the display reads back as the value rounded to 8 decimals below 0.01 and to maxDecimals otherwise; 0 gives "0" |
| NumberFormat.FormatNumberOneAndAHalf | src/problem2/src/services/tokenService.ts:70-83 | 1.5 is shown as "1.5" |
| NumberFormat.FormatNumberWhole | src/problem2/src/services/tokenService.ts:70-83 | 2 is shown as "2" |
| NumberFormat.FormatNumberSmall | src/problem2/src/services/tokenService.ts:74-76 | 0.001 is shown with 8 decimals as "0.00100000", zeros kept |
| NumberFormat.FormatNumberDropsIntegerZeros | src/problem2/src/services/tokenService.ts:79-82 | as written, with maxDecimals 0, 100 is shown as "1", which reads back as 1 and not as 100 |
| NumberFormat.FormatNumberCorrectedRoundTrip | src/problem2/src/services/tokenService.ts:70-83 | with the strip limited to output that has a fraction, the display reads back as the rounded value for every maxDecimals, 0 included |
| NumberFormat.FormatNumberCorrectedAgrees | src/problem2/src/services/tokenService.ts:70-83 | the corrected formatter differs from the original only when maxDecimals is 0 |
| WalletService.FindIndex | src/problem2/src/services/walletService.ts:10 | `find` stops at the first entry with the symbol; every entry before it has another symbol |
| WalletService.GetTokenBalance | src/problem2/src/services/walletService.ts:6-12 | the result is the balance of the first entry with the symbol, or 0 when no entry has it, including for an empty wallet |
| WalletService.OtherSymbolsIrrelevant | src/problem2/src/services/walletService.ts:10 | entries with other symbols placed in front do not change the result |
| WalletService.LaterEntriesIrrelevant | src/problem2/src/services/walletService.ts:10 | entries after the first match do not change the result |
| WalletService.BalanceNonNegative | src/problem2/src/services/walletService.ts:11 | a wallet with no negative balances gives no negative result |
| CurrencyInput.PatternCharacters | src/problem2/src/components/CurrencyInput.tsx:36 | a text matches `^\d*\.?\d*$` iff it consists of ASCII digits and points with at most one point |
| CurrencyInput.TestAmountPattern | src/problem2/src/components/CurrencyInput.tsx:36 | the left-to-right scan accepts exactly the texts the regular expression matches |
| CurrencyInput.HandleChange | src/problem2/src/components/CurrencyInput.tsx:26-39 | empty input is forwarded as "". Non-empty input is forwarded unchanged iff it matches the grammar. Otherwise `onChange` is not called. |
| CurrencyInput.FieldAfterKeystroke | src/problem2/src/components/CurrencyInput.tsx:36-38 | a rejected keystroke leaves the field value as it was; an accepted one replaces it |
| CurrencyInput.EmptyMatchesPattern | src/problem2/src/components/CurrencyInput.tsx:30-36 | the empty-input shortcut agrees with the regular expression, which also matches "" |
| CurrencyInput.AcceptedAmountParses | src/problem2/src/components/CurrencyInput.tsx:36 | an accepted text reads as a non-negative number, or as NaN exactly when it is empty or a point not followed by a digit |
| CurrencyInput.BalanceFlags | src/problem2/src/components/CurrencyInput.tsx:41-42 | `ShowBalance` and `IsLowBalance`: with no balance neither flag is set, an empty symbol hides the balance, MAX shows (when enabled and not loading) iff the balance does, and low means strictly between 0 and 10 |
| CurrencyInput.HasInsufficientBalance | src/problem2/src/components/CurrencyInput.tsx:43 | the flag holds iff there is a message whose lower-cased text contains "insufficient" |
| CurrencyInput.InsufficientIgnoresCase | src/problem2/src/components/CurrencyInput.tsx:43 | messages that differ only in letter case are classified alike |
| CurrencyInput.ErrorTone | src/problem2/src/components/CurrencyInput.tsx:73-78 | no error style without a (non-empty) message; the warning style iff the message is non-empty and flagged insufficient |
| CurrencySelector.FilterTokens | src/problem2/src/components/CurrencySelector.tsx:39-41 | a token is listed iff its lower-cased symbol contains the lower-cased search term, as often as it occurs in the catalog |
| CurrencySelector.FilterIsSubsequence | src/problem2/src/components/CurrencySelector.tsx:39-41 | the listed tokens keep their catalog order |
| CurrencySelector.EmptySearchKeepsAll | src/problem2/src/components/CurrencySelector.tsx:40 | an empty search term lists the whole catalog |
| CurrencySelector.SearchIgnoresCase | src/problem2/src/components/CurrencySelector.tsx:40 | typing the search term in capitals lists the same tokens |
| CurrencySelector.Step | src/problem2/src/components/CurrencySelector.tsx:28-113 | a pick on an open list hands exactly the token at that position of the filtered list to `onSelect`, then closes the list and clears the search; a pick outside the list changes nothing. The button flips the list open or closed, and does nothing while disabled. Typing sets the search term while the list is open. An outside click closes the list and clears the search. |
| CurrencySelector.ReopenListsAll | src/problem2/src/components/CurrencySelector.tsx:43-47 | after a pick or an outside click the list shows every token the next time it opens |
| CurrencySelector.ToggleTwice | src/problem2/src/components/CurrencySelector.tsx:60 | closing with the button keeps the search term, and reopening restores the state |
| SwapForm.FindToken | src/problem2/src/App.tsx:61-62 | the token found is in the catalog with the symbol asked for; none is found iff no catalog token has that symbol |
| SwapForm.FromTokenError | src/problem2/src/App.tsx:177-178 | the from-token is required |
| SwapForm.ToTokenError | src/problem2/src/App.tsx:254-262 | the to-token is required. A to-token equal to the from-token gives "Cannot swap to the same token". Otherwise there is no error. |
| SwapForm.FromAmountError | src/problem2/src/App.tsx:203-218 | an empty amount is required-error. Otherwise an error exists iff the from-token is in the catalog, the text is a number, and the balance is 0 or below the amount. The message embeds the balance and the symbol. |
| SwapForm.PointAloneHasNoAmountError | src/problem2/src/App.tsx:208-210 | "." passes the balance rule, whatever the balance |
| SwapForm.InsufficientMessageFlagged | src/problem2/src/App.tsx:214 | the insufficient-balance message is classified as insufficient by the amount field |
| SwapForm.ValidateAll | src/problem2/src/App.tsx:172-262 | every rule passes iff both tokens are set and differ and the amount rule passes |
| SwapForm.DerivedToAmountMeaning | src/problem2/src/App.tsx:85-98 | `DerivedToAmount`: the received amount is non-empty iff both tokens are in the catalog and the amount is a positive number; it then reads back as the converted amount rounded for display |
| SwapForm.EmptyAmountDerivesNothing | src/problem2/src/App.tsx:86-97 | with an empty amount the received amount is "" |
| SwapForm.PreviewGate | src/problem2/src/App.tsx:64 | `IsDisabled`, and `PreviewDisabled`, which adds the success banner and the in-flight submission (lines 303-304): an enabled Preview button means both tokens are in the catalog, the amount is non-empty with no amount error, and nothing is submitting or showing success. The toToken and fromToken errors never affect the button. |
| SwapForm.PreviewEnabledWithoutQuote | src/problem2/src/App.tsx:85-98 | the button can be enabled with no received amount: an amount of "." between two catalog tokens |
| SwapForm.AmountFieldFlags | src/problem2/src/App.tsx:228-229 | the balance and MAX show iff the from-token is in the catalog under a non-empty symbol. The balance is flagged low iff it lies strictly between 0 and 10. |
| SwapForm.InitialInv | src/problem2/src/App.tsx:22-37 | the page starts with the default form, nothing received, no modal, and no submission in flight |
| SwapForm.StepInv | src/problem2/src/App.tsx:85-146 | `Step` (with StepFrame and the event lemmas below): every event keeps the page invariant. The received amount equals the derived one. A settlement is pending exactly while submitting, and a reset exactly while the success banner shows. Submitting happens only with the modal open. The modal is closed while success shows. |
| SwapForm.StepFrame | src/problem2/src/App.tsx:100-146 | `Step`: each event changes only the state its handler writes. The from/to symbols change only on a pick or swap. The amount changes only on a keystroke, swap, MAX or reset. Errors change only where a rule runs or MAX clears. The modal changes only on Preview, success or close. The in-flight flag changes only on confirm or settlement. A form change re-derives the received amount. |
| SwapForm.RunInv | src/problem2/src/App.tsx:85-146 | the invariant holds after every sequence of events |
| SwapForm.DoubleConfirmSettlesOnce | src/problem2/src/components/ConfirmationModal.tsx:125-128 | a second Confirm while the first is in flight changes nothing, so one settlement starts |
| SwapForm.CloseWhileSubmitting | src/problem2/src/App.tsx:142-146 | closing the modal does nothing while a submission is in flight |
| SwapForm.FailureKeepsModal | src/problem2/src/App.tsx:135-139 | a failed settlement clears the in-flight flag and leaves the modal open with the form unchanged |
| SwapForm.SuccessThenReset | src/problem2/src/App.tsx:126-134 | success closes the modal, shows the banner and disables Preview. The later reset clears both amounts and the banner. |
| SwapForm.PreviewOpensModal | src/problem2/src/App.tsx:114-116 | after Preview the modal is open iff it already was, or the button was enabled and every rule passes |
| SwapForm.SameTokenNeverPreviews | src/problem2/src/App.tsx:257-260 | with the same token on both sides Preview never opens the modal |
| SwapForm.SameTokenKeepsPreviewEnabled | src/problem2/src/App.tsx:64 | a state with only the same-token error has an enabled Preview button |
| SwapForm.SwapTwice | src/problem2/src/App.tsx:100-104 | swapping exchanges the symbols, moves the received amount into the amount field and leaves the errors alone; swapping twice restores both symbols |
| SwapForm.MaxFillsBalance | src/problem2/src/App.tsx:106-112 | MAX does nothing when the amount field does not render it: without a from-token in the catalog, or under an empty symbol (CurrencyInput.tsx:41, :56). Otherwise it fills in the printed balance and clears the amount error. |
| SwapForm.RejectedKeystroke | src/problem2/src/components/CurrencyInput.tsx:36-38 | a keystroke the amount grammar rejects leaves the page unchanged |
| WalletPage.Priority | src/problem3/RefactoredComponent.tsx:75-77 | a priority above -99 exactly for the blockchains of the table |
| WalletPage.PriorityTable | src/problem3/RefactoredComponent.tsx:50-61 | Osmosis 100, Ethereum 50, Arbitrum 30, Zilliqa 20, Neo 20, anything else -99 |
| WalletPage.FilterBalances | src/problem3/RefactoredComponent.tsx:184-187 | a balance is kept iff its blockchain is in the table and its amount is positive; order and multiplicity are kept (a subsequence of the input) |
| WalletPage.ByPriorityIsPreorder | src/problem3/RefactoredComponent.tsx:188-192 | the priority comparator is consistent (total and transitive) |
| WalletPage.FormatBalance | src/problem3/RefactoredComponent.tsx:193-202 | a row keeps currency, amount and blockchain, and carries the amount to two decimals and price × amount |
| WalletPage.SortedAndFormatted | src/problem3/RefactoredComponent.tsx:179-181 | a missing or non-array balance list gives no rows |
| WalletPage.RowsAreSortedKept | src/problem3/RefactoredComponent.tsx:183-192 | stripped of display fields, the rows are the kept balances sorted by priority |
| WalletPage.RowsPermuteKept | src/problem3/RefactoredComponent.tsx:183-192 | the rows are a permutation of the kept balances; a balance appears iff it is in the input and kept |
| WalletPage.RowsByPriority | src/problem3/RefactoredComponent.tsx:188-192 | rows come in non-increasing priority |
| WalletPage.RowsStable | src/problem3/RefactoredComponent.tsx:188-192 | balances of equal priority keep their input order |
| WalletPage.RowsValued | src/problem3/RefactoredComponent.tsx:193-202 | each row's USD value is its currency's price (0 when missing) times its amount |
| SumToN.SumA | src/problem1/index.js:7-10 | 0 for n ≤ 0; otherwise twice the result is n(n+1) |
| SumToN.ProductOfConsecutiveEven | src/problem1/index.js:9 | n(n+1) is even, so the division by 2 is exact |
| SumToN.SumB | src/problem1/index.js:17-23 | the loop never runs for n ≤ 0 and gives 0. Otherwise, with the invariant 2·sum = (i−1)·i, it gives n(n+1)/2. |
| SumToN.SumC | src/problem1/index.js:30-33 | the recursion terminates, giving 0 for n ≤ 0 and n(n+1)/2 otherwise |
| SumToN.SumCStep | src/problem1/index.js:32 | c(n) = n + c(n−1), and each step adds what the closed form adds |
| SumToN.AllAgree | src/problem1/index.js:2-33 | the three implementations return the same value for every integer |

## Left out

- The network fetch, `response.ok`, JSON parsing and `console.error` are left out. So are the loading and error screens. The feed is a given list of records.
- IEEE-754 doubles are not modelled; every number is an exact real.
  - `toFixed`'s exponent form for values ≥ 10^21 is left out.
  - `parseFloat` on signs, leading whitespace, exponents and `Infinity` is left out. No text in reachable form state has them, except possibly the output of `toString` in MAX, which is uninterpreted.
- `new Date(...)` parsing is not modelled: dates are integers. Invalid dates, whose comparisons are all false, are not modelled.
- `localeCompare` is an arbitrary total, transitive comparator; no collation is modelled.
- `toLowerCase` and `toUpperCase` are modelled over ASCII letters only.
- The form library's internals are not modelled: subscriptions, re-render timing, and the asynchronous `trigger()`.
  - The library is assumed to run the validators with the current render's values.
  - The From pick's `trigger()` may in fact run validators captured at the previous render; that staleness is not modelled.
- Timers are discrete events, not time: the 2000 ms simulated settlement, the 3000 ms reset and the 100 ms auto-focus. Auto-focus is not modelled.
- The simulated settlement never rejects, so the failure event never happens in practice. It is modelled because the code has the failure path.
- SwapForm.DerivedToAmount and SwapForm.Step require positive catalog prices, which `TokenService.Catalog` guarantees. With a zero target price the source would divide by zero.
- All rendering and styling is left out: Popover.tsx, TokenIcon.tsx, ExchangeRate.tsx and the ConfirmationModal.tsx markup. Of Button.tsx, only "loading implies disabled" is kept.
- The mock wallet that `App.tsx` loads (`mockBalances`) is left out; the wallet is a parameter of the page context.
- The mock hooks of the wallet page (`useWalletBalances`, `usePrices`) are left out; balances and prices are parameters. The render path is left out.
- The sum functions on non-integer n, or on n large enough to lose double precision, are not modelled; n is an integer.
- NumberFormat.FormatNumberRoundTrip and NumberFormat.FormatNumberCorrectedRoundTrip: stated for non-negative values. The model's `parseFloat` does not read a leading "-".
- TokenService.ExchangeRate: requires a non-zero target price whenever the source price is non-zero, because the source does not guard the division.
- TokenService.ExchangeRate: the guard of tokenService.ts:49 that returns 0 when either token is missing is not modelled; both tokens are always given, because every caller checks them first.
- NumberFormat.FormatNumberCorrectedRoundTrip, NumberFormat.FormatNumber, NumberFormat.FormatNumberRoundTrip and JsNumber.ToFixed: stated for every maxDecimals, although `toFixed` throws a RangeError above 100; the model has no exceptions. Every caller passes the default of 6.
- WalletService.GetTokenBalance: a stored `NaN` balance, which `|| 0` would turn into 0, is not modelled.

## Findings

| source | as written | input that shows it | evidently intended | confidence | as-written member | corrected member |
|---|---|---|---|---|---|---|
| src/problem2/src/services/tokenService.ts:79-82 | `formatNumber` strips `\.?0+$` even when `maxDecimals` is 0, where `toFixed` writes no point, so the integer's own trailing zeros are removed | `formatNumber(100, 0)` returns "1" | strip only fractional zeros, so 100 stays "100" | not executed; every caller uses the default of 6 decimals, so the page does not reach this input | NumberFormat.FormatNumberDropsIntegerZeros | NumberFormat.FormatNumberCorrectedRoundTrip |

=== FILE: currency_input.dfy ===
/** The amount field (src/problem2/src/components/CurrencyInput.tsx): the
    keystroke filter `^\d*\.?\d*$` and the display flags derived from the
    balance and the error message. */
module CurrencyInput {
  import opened Wrappers
  import opened Text
  import opened JsNumber

  /** The regular expression `^\d*\.?\d*$` read literally: digits, an optional
      point, digits. (`\d` without the `u` flag is ASCII 0-9.) */
  ghost predicate MatchesAmountPattern(s: string) {
    exists a: string, b: string :: AllDigits(a) && AllDigits(b) && (s == a + b || s == a + "." + b)
  }

  /** Every character is a digit or a point, and no two are points. */
  predicate DigitsAndOneDot(s: string) {
    && (forall i :: 0 <= i < |s| ==> IsDigit(s[i]) || s[i] == '.')
    && (forall i, j :: 0 <= i < j < |s| && s[i] == '.' ==> s[j] != '.')
  }

  lemma PatternCharacters(s: string)
    ensures MatchesAmountPattern(s) <==> DigitsAndOneDot(s)
  {
    if MatchesAmountPattern(s) {
      PatternHasDigitsAndOneDot(s);
    }
    if DigitsAndOneDot(s) {
      DigitsAndOneDotMatchPattern(s);
    }
  }

  lemma PatternHasDigitsAndOneDot(s: string)
    requires MatchesAmountPattern(s)
    ensures DigitsAndOneDot(s)
  {
    var a: string, b: string :| AllDigits(a) && AllDigits(b) && (s == a + b || s == a + "." + b);
    if s == a + b {
      assert forall i :: 0 <= i < |s| ==> IsDigit(s[i]) by {
        forall i | 0 <= i < |s|
          ensures IsDigit(s[i])
        {
          if i < |a| { assert s[i] == a[i]; } else { assert s[i] == b[i - |a|]; }
        }
      }
    } else {
      forall i | 0 <= i < |s| && i != |a|
        ensures IsDigit(s[i])
      {
        if i < |a| { assert s[i] == a[i]; } else { assert s[i] == b[i - |a| - 1]; }
      }
    }
  }

  lemma DigitsAndOneDotMatchPattern(s: string)
    requires DigitsAndOneDot(s)
    ensures MatchesAmountPattern(s)
  {
    if forall i :: 0 <= i < |s| ==> s[i] != '.' {
      assert AllDigits(s) && s == s + "";
    } else {
      var k :| 0 <= k < |s| && s[k] == '.';
      var a, b := s[..k], s[k + 1..];
      assert s == a + "." + b;
      assert forall i :: 0 <= i < |a| ==> a[i] == s[i] && s[i] != '.';
      assert forall i :: 0 <= i < |b| ==> b[i] == s[k + 1 + i] && s[k + 1 + i] != '.';
      assert AllDigits(a) && AllDigits(b);
    }
  }

  /** The regular expression test, scanning left to right. */
  method TestAmountPattern(s: string) returns (ok: bool)
    ensures ok <==> MatchesAmountPattern(s)
  {
    PatternCharacters(s);
    var seenDot := false;
    var i := 0;
    while i < |s|
      invariant 0 <= i <= |s|
      invariant DigitsAndOneDot(s[..i])
      invariant seenDot <==> exists j :: 0 <= j < i && s[j] == '.'
    {
      if s[i] == '.' {
        if seenDot {
          var j :| 0 <= j < i && s[j] == '.';
          assert !DigitsAndOneDot(s);
          return false;
        }
        seenDot := true;
      } else if !IsDigit(s[i]) {
        assert !DigitsAndOneDot(s);
        return false;
      }
      assert s[..i + 1] == s[..i] + [s[i]];
      i := i + 1;
    }
    assert s[..i] == s;
    return true;
  }

  /** `handleChange`: the value passed to `onChange`, or `None` when the
      keystroke is rejected and `onChange` is not called. */
  method HandleChange(input: string) returns (forwarded: Option<string>)
    ensures input == "" ==> forwarded == Some("")
    ensures forwarded.Some? ==> forwarded.value == input
    ensures forwarded.Some? <==> MatchesAmountPattern(input)
  {
    if input == "" {
      EmptyMatchesPattern();
      return Some("");
    }
    var ok := TestAmountPattern(input);
    if ok {
      return Some(input);
    }
    return None;
  }

  /** The field value after a keystroke: a rejected keystroke leaves it as it was. */
  method FieldAfterKeystroke(value: string, input: string) returns (next: string)
    ensures MatchesAmountPattern(input) ==> next == input
    ensures !MatchesAmountPattern(input) ==> next == value
  {
    var forwarded := HandleChange(input);
    next := forwarded.GetOr(value);
  }

  /** The empty-input shortcut agrees with the regular expression. */
  lemma EmptyMatchesPattern()
    ensures MatchesAmountPattern("")
  {
    assert AllDigits("") && "" == "" + "";
  }

  /** Every text the field accepts is read by `parseFloat` as a non-negative
      number or as NaN ("" and "." alone, for instance). */
  lemma AcceptedAmountParses(s: string)
    requires MatchesAmountPattern(s)
    ensures ParseFloat(s).Some? ==> ParseFloat(s).value >= 0.0
    ensures ParseFloat(s).None? <==> s == "" || (s[0] == '.' && (|s| == 1 || !IsDigit(s[1])))
  {
    PatternCharacters(s);
    if |s| > 1 && s[0] == '.' {
      assert s[1] != '.';
    }
  }

  /** `showBalance`: a balance is given and the symbol is a non-empty string. */
  predicate ShowBalance(balance: Option<real>, tokenSymbol: Option<string>) {
    balance.Some? && tokenSymbol.Some? && tokenSymbol.value != ""
  }

  /** The MAX button is rendered with the balance, when a handler is given and
      the field is enabled. */
  predicate ShowMax(balance: Option<real>, tokenSymbol: Option<string>, hasMaxHandler: bool, disabled: bool) {
    ShowBalance(balance, tokenSymbol) && hasMaxHandler && !disabled
  }

  /** `isLowBalance`. */
  predicate IsLowBalance(balance: Option<real>) {
    balance.Some? && 0.0 < balance.value < 10.0
  }

  /** Without a balance nothing is shown or flagged; an empty symbol is falsy
      and hides the balance; MAX comes with the balance whenever a handler is
      given and the field is enabled; a balance is flagged low exactly when it
      lies strictly between 0 and 10. */
  lemma BalanceFlags(balance: Option<real>, tokenSymbol: Option<string>)
    ensures balance.None? ==> !ShowBalance(balance, tokenSymbol) && !IsLowBalance(balance)
    ensures tokenSymbol == Some("") ==> !ShowBalance(balance, tokenSymbol)
    ensures ShowMax(balance, tokenSymbol, true, false) <==> ShowBalance(balance, tokenSymbol)
    ensures IsLowBalance(balance) <==> balance.Some? && 0.0 < balance.value < 10.0
    ensures !IsLowBalance(Some(0.0)) && IsLowBalance(Some(9.5)) && !IsLowBalance(Some(10.0))
  {
  }

  /** `hasInsufficientBalance`: the lower-cased message contains "insufficient"
      (`undefined`, hence false, without a message). */
  function HasInsufficientBalance(error: Option<string>): (b: bool)
    ensures b <==> error.Some? && Occurs(ToLower(error.value), "insufficient")
  {
    error.Some? && Contains(ToLower(error.value), "insufficient")
  }

  /** How an error is shown: none, as a warning (insufficient balance) or as a
      plain error. An empty message is falsy and shows nothing. */
  datatype Tone = Neutral | Warning | Danger

  function ErrorTone(error: Option<string>): (t: Tone)
    ensures t == Neutral <==> error.None? || error.value == ""
    ensures t == Warning <==> error.Some? && error.value != "" && HasInsufficientBalance(error)
  {
    if error.None? || error.value == "" then Neutral
    else if HasInsufficientBalance(error) then Warning
    else Danger
  }

  /** The classification ignores the case of the message. */
  lemma InsufficientIgnoresCase(a: string, b: string)
    requires SameIgnoringCase(a, b)
    ensures HasInsufficientBalance(Some(a)) == HasInsufficientBalance(Some(b))
  {
  }
}

=== FILE: currency_selector.dfy ===
/** The token picker (src/problem2/src/components/CurrencySelector.tsx): a
    case-insensitive substring search over the catalog, and the open/closed
    state with its search term. */
module CurrencySelector {
  import opened Seqs
  import opened Wrappers
  import opened Text
  import opened TokenService

  /** `token.symbol.toLowerCase().includes(searchTerm.toLowerCase())`. */
  predicate Matches(token: Token, searchTerm: string) {
    Contains(ToLower(token.symbol), ToLower(searchTerm))
  }

  /** `filteredTokens`. */
  function FilterTokens(tokens: seq<Token>, searchTerm: string): (r: seq<Token>)
    ensures forall t :: t in r <==> t in tokens && Matches(t, searchTerm)
    ensures forall t :: multiset(r)[t] == if Matches(t, searchTerm) then multiset(tokens)[t] else 0
    ensures |r| <= |tokens|
  {
    if |tokens| == 0 then []
    else
      var rest := FilterTokens(tokens[1..], searchTerm);
      assert tokens == [tokens[0]] + tokens[1..];
      if Matches(tokens[0], searchTerm) then [tokens[0]] + rest else rest
  }

  /** The filter keeps the catalog order. */
  lemma {:induction false} FilterIsSubsequence(tokens: seq<Token>, searchTerm: string)
    ensures IsSubsequence(FilterTokens(tokens, searchTerm), tokens)
  {
    if |tokens| > 0 {
      var r := FilterTokens(tokens, searchTerm);
      var rest := FilterTokens(tokens[1..], searchTerm);
      FilterIsSubsequence(tokens[1..], searchTerm);
      if Matches(tokens[0], searchTerm) {
        assert r[0] == tokens[0] && r[1..] == rest;
      } else {
        assert r == rest;
        if |r| > 0 {
          assert IsSubsequence(r, tokens[1..]);
        }
      }
    }
  }

  /** With an empty search term the whole catalog is listed. */
  lemma {:induction false} EmptySearchKeepsAll(tokens: seq<Token>)
    ensures FilterTokens(tokens, "") == tokens
  {
    if |tokens| > 0 {
      ContainsEmpty(ToLower(tokens[0].symbol));
      EmptySearchKeepsAll(tokens[1..]);
    }
  }

  /** A search term typed in capitals lists the same tokens. */
  lemma {:induction false} SearchIgnoresCase(tokens: seq<Token>, searchTerm: string)
    ensures FilterTokens(tokens, ToUpper(searchTerm)) == FilterTokens(tokens, searchTerm)
  {
    ToUpperSameIgnoringCase(searchTerm);
    if |tokens| > 0 {
      SearchIgnoresCase(tokens[1..], searchTerm);
    }
  }

  /** The picker's own state. */
  datatype SelectorState = SelectorState(isOpen: bool, searchTerm: string)

  const Initial := SelectorState(false, "")

  datatype SelectorEvent =
    | Toggle            // click on the picker button
    | Search(text: string)  // typing in the search box
    | Pick(index: nat)      // click on the `index`-th listed token
    | ClickOutside      // mousedown outside the picker

  /** One event: the next state, and the token handed to `onSelect`, if any.
      The search box and the list exist only while the picker is open, and
      the button does nothing while `disabled`. */
  function Step(st: SelectorState, tokens: seq<Token>, disabled: bool, ev: SelectorEvent): (r: (SelectorState, Option<Token>))
    ensures r.1.Some? ==> r.1.value in tokens && Matches(r.1.value, st.searchTerm)
    ensures r.1.Some? ==> r.0 == Initial
    ensures ev.Pick? ==>
      var listed := FilterTokens(tokens, st.searchTerm);
      if st.isOpen && ev.index < |listed| then r == (Initial, Some(listed[ev.index])) else r == (st, None)
    ensures ev.Toggle? ==> r == (if disabled then st else st.(isOpen := !st.isOpen), None)
    ensures ev.Search? ==> r == (if st.isOpen then st.(searchTerm := ev.text) else st, None)
    ensures ev.ClickOutside? ==> r == (Initial, None)
  {
    match ev
    case Toggle =>
      if disabled then (st, None) else (st.(isOpen := !st.isOpen), None)
    case Search(text) =>
      if st.isOpen then (st.(searchTerm := text), None) else (st, None)
    case Pick(i) =>
      var listed := FilterTokens(tokens, st.searchTerm);
      if st.isOpen && i < |listed| then
        assert listed[i] in listed;
        (Initial, Some(listed[i]))
      else (st, None)
    case ClickOutside =>
      (Initial, None)
  }

  /** After a pick or an outside click the list shows every token again the
      next time it opens. */
  lemma ReopenListsAll(st: SelectorState, tokens: seq<Token>, disabled: bool, ev: SelectorEvent)
    requires Step(st, tokens, disabled, ev).1.Some? || ev.ClickOutside?
    ensures FilterTokens(tokens, Step(st, tokens, disabled, ev).0.searchTerm) == tokens
  {
    EmptySearchKeepsAll(tokens);
  }

  /** Closing with the button keeps the search term; clicking it again
      reopens the list as it was. */
  lemma ToggleTwice(st: SelectorState, tokens: seq<Token>)
    ensures Step(Step(st, tokens, false, Toggle).0, tokens, false, Toggle).0 == st
    ensures Step(st, tokens, false, Toggle).0.searchTerm == st.searchTerm
  {
  }
}

=== FILE: js_number.dfy ===
/** The two JavaScript number/text conversions the core relies on, over exact
    reals instead of IEEE doubles:
    - `Number.prototype.toFixed(f)` (section 21.1.3.3 of ECMA-262): pick the
      integer n closest to x * 10^f, the larger one on a tie, and write n / 10^f
      with exactly f decimals, after a "-" when x is negative;
    - `parseFloat` on unsigned decimal text: the longest prefix of the shape
      digits [ "." digits ] that contains at least one digit. */
module JsNumber {
  import opened Wrappers
  import opened Text

  function Pow10(n: nat): (p: nat)
    ensures p >= 1
  {
    if n == 0 then 1 else 10 * Pow10(n - 1)
  }

  predicate AllDigits(s: string) {
    forall i :: 0 <= i < |s| ==> IsDigit(s[i])
  }

  function DigitChar(d: nat): (c: char)
    requires d < 10
    ensures IsDigit(c)
  {
    ('0' as int + d) as char
  }

  function DigitValue(c: char): (d: nat)
    requires IsDigit(c)
    ensures d < 10 && DigitChar(d) == c
  {
    c as int - '0' as int
  }

  /** `k` zero characters. */
  function Zeros(k: nat): (z: string)
    ensures |z| == k && AllDigits(z)
    ensures forall i :: 0 <= i < k ==> z[i] == '0'
  {
    if k == 0 then "" else "0" + Zeros(k - 1)
  }

  /** The value of a string of decimal digits, most significant first. */
  function DigitsValue(s: string): nat
    requires AllDigits(s)
  {
    if |s| == 0 then 0 else DigitsValue(s[..|s| - 1]) * 10 + DigitValue(s[|s| - 1])
  }

  /** The decimal numeral of `n`: no leading zero except for "0" itself. */
  function DecimalDigits(n: nat): (s: string)
    ensures |s| >= 1 && AllDigits(s)
    ensures |s| > 1 ==> s[0] != '0'
    ensures n < Pow10(|s|)
  {
    if n < 10 then [DigitChar(n)] else DecimalDigits(n / 10) + [DigitChar(n % 10)]
  }

  lemma {:induction false} DigitsValueAppend(a: string, b: string)
    requires AllDigits(a) && AllDigits(b)
    ensures AllDigits(a + b)
    ensures DigitsValue(a + b) == DigitsValue(a) * Pow10(|b|) + DigitsValue(b)
    decreases |b|
  {
    if |b| > 0 {
      var b' := b[..|b| - 1];
      assert (a + b)[..|a + b| - 1] == a + b';
      DigitsValueAppend(a, b');
      var d := DigitValue(b[|b| - 1]);
      assert DigitsValue(a + b) == DigitsValue(a + b') * 10 + d;
      assert DigitsValue(b) == DigitsValue(b') * 10 + d;
      ShiftDigit(DigitsValue(a), Pow10(|b'|), DigitsValue(b'), d);
    } else {
      assert a + b == a;
    }
  }

  /** Appending digit `d` to "a followed by b" multiplies the place value of `a` by 10. */
  lemma ShiftDigit(a: nat, p: nat, b: nat, d: nat)
    ensures (a * p + b) * 10 + d == a * (10 * p) + (b * 10 + d)
  {
  }

  lemma {:induction false} DigitsValueZeros(k: nat)
    ensures DigitsValue(Zeros(k)) == 0
  {
    if k > 0 {
      assert Zeros(k) == Zeros(k - 1) + "0";
      ZerosAppend(k - 1);
      DigitsValueAppend(Zeros(k - 1), "0");
      DigitsValueZeros(k - 1);
    }
  }

  lemma {:induction false} ZerosAppend(k: nat)
    ensures Zeros(k + 1) == Zeros(k) + "0"
  {
    if k > 0 {
      ZerosAppend(k - 1);
    }
  }

  /** Reading a numeral back gives the number written. */
  lemma {:induction false} DecimalDigitsRoundTrip(n: nat)
    ensures DigitsValue(DecimalDigits(n)) == n
  {
    if n >= 10 {
      var s := DecimalDigits(n);
      assert s[..|s| - 1] == DecimalDigits(n / 10);
      DecimalDigitsRoundTrip(n / 10);
    }
  }

  /** `toFixed`'s rounding: the integer nearest to `x`, the larger one on a tie. */
  function RoundHalfUp(x: real): (n: int)
    ensures x - 0.5 < n as real <= x + 0.5
  {
    (x + 0.5).Floor
  }

  /** `n / 10^f` written with exactly `f` decimals (no point when `f` is 0). */
  function FixedDigits(n: nat, f: nat): (s: string)
    ensures f == 0 ==> s == DecimalDigits(n)
    ensures f > 0 ==> IsFixedNumeral(s, n, f)
  {
    var m := DecimalDigits(n);
    if f == 0 then m
    else
      var padded := if |m| <= f then Zeros(f + 1 - |m|) + m else m;
      var k := |padded| - f;
      var s := padded[..k] + "." + padded[k..];
      FixedDigitsSplit(m, padded, n, f);
      assert s[..k] == padded[..k] && s[k + 1..] == padded[k..];
      assert IsFixedSplit(s, k, n, f);
      s
  }

  /** `s` is "intpart.fraction" with the point at `k`, `f` fraction digits, an
      integer part without superfluous leading zeros, and value `n / 10^f`. */
  ghost predicate IsFixedSplit(s: string, k: nat, n: nat, f: nat) {
    && k < |s| && s[k] == '.' && |s| == k + 1 + f
    && AllDigits(s[..k]) && AllDigits(s[k + 1..])
    && (k > 1 ==> s[0] != '0')
    && DigitsValue(s[..k]) * Pow10(f) + DigitsValue(s[k + 1..]) == n
  }

  /** `s` is a `toFixed` numeral with `f` decimals worth `n / 10^f`. */
  ghost predicate IsFixedNumeral(s: string, n: nat, f: nat) {
    exists k :: 1 <= k < |s| && IsFixedSplit(s, k, n, f)
  }

  lemma FixedDigitsSplit(m: string, padded: string, n: nat, f: nat)
    requires f > 0 && m == DecimalDigits(n)
    requires padded == if |m| <= f then Zeros(f + 1 - |m|) + m else m
    ensures |padded| > f && AllDigits(padded)
    ensures DigitsValue(padded[..|padded| - f]) * Pow10(f) + DigitsValue(padded[|padded| - f..]) == n
    ensures |padded| - f > 1 ==> padded[0] != '0'
  {
    if |m| <= f {
      ShortSplit(m, n, f);
    } else {
      LongSplit(m, n, f);
    }
  }

  /** A numeral with at most `f` digits is padded to one integer digit. */
  lemma ShortSplit(m: string, n: nat, f: nat)
    requires m == DecimalDigits(n) && |m| <= f
    ensures var padded := Zeros(f + 1 - |m|) + m;
            |padded| == f + 1 && AllDigits(padded)
            && DigitsValue(padded[..1]) * Pow10(f) + DigitsValue(padded[1..]) == n
  {
    var padded := Zeros(f + 1 - |m|) + m;
    PaddedValue(m, n, f + 1 - |m|);
    SplitValue(padded, 1);
  }

  /** A numeral with more than `f` digits splits without padding. */
  lemma LongSplit(m: string, n: nat, f: nat)
    requires m == DecimalDigits(n) && |m| > f
    ensures DigitsValue(m[..|m| - f]) * Pow10(f) + DigitsValue(m[|m| - f..]) == n
  {
    DecimalDigitsRoundTrip(n);
    SplitValue(m, |m| - f);
  }

  /** Leading zeros do not change the value of a numeral. */
  lemma PaddedValue(m: string, n: nat, z: nat)
    requires m == DecimalDigits(n)
    ensures AllDigits(Zeros(z) + m) && DigitsValue(Zeros(z) + m) == n
  {
    DecimalDigitsRoundTrip(n);
    DigitsValueAppend(Zeros(z), m);
    DigitsValueZeros(z);
    assert DigitsValue(Zeros(z) + m) == 0 * Pow10(|m|) + n;
  }

  /** Cutting a digit string in two splits its value by place. */
  lemma SplitValue(p: string, k: nat)
    requires AllDigits(p) && k <= |p|
    ensures AllDigits(p[..k]) && AllDigits(p[k..])
    ensures DigitsValue(p[..k]) * Pow10(|p| - k) + DigitsValue(p[k..]) == DigitsValue(p)
  {
    assert p == p[..k] + p[k..];
    DigitsValueAppend(p[..k], p[k..]);
  }

  /** A magnitude in units of the `f`-th decimal, rounded the way `toFixed` rounds. */
  function Units(x: real, f: nat): nat
    requires x >= 0.0
  {
    RoundHalfUp(x * Pow10(f) as real)
  }

  /** `x.toFixed(f)` for |x| below 10^21. */
  function ToFixed(x: real, f: nat): string
  {
    if x < 0.0 then "-" + FixedDigits(Units(-x, f), f) else FixedDigits(Units(x, f), f)
  }

  /** With at least one decimal, `toFixed` writes a "-" for a negative value,
      then a canonical integer part, a point and exactly `f` digits, worth the
      magnitude rounded half up to `f` decimals. */
  lemma ToFixedDecimals(x: real, f: nat)
    requires f > 0
    ensures x >= 0.0 ==> IsFixedNumeral(ToFixed(x, f), Units(x, f), f)
    ensures x < 0.0 ==>
      var s := ToFixed(x, f);
      |s| > 0 && s[0] == '-' && IsFixedNumeral(s[1..], Units(-x, f), f)
  {
    if x < 0.0 {
      var d := FixedDigits(Units(-x, f), f);
      assert ToFixed(x, f)[1..] == d;
      var k :| 1 <= k < |d| && IsFixedSplit(d, k, Units(-x, f), f);
    } else {
      var d := FixedDigits(Units(x, f), f);
      var k :| 1 <= k < |d| && IsFixedSplit(d, k, Units(x, f), f);
    }
  }

  /** Length of the run of digits at the front of `s`. */
  function LeadingDigits(s: string): (k: nat)
    ensures k <= |s| && AllDigits(s[..k])
    ensures k < |s| ==> !IsDigit(s[k])
  {
    if |s| == 0 || !IsDigit(s[0]) then 0
    else
      var k := 1 + LeadingDigits(s[1..]);
      assert s[..k] == [s[0]] + s[1..][..k - 1];
      k
  }

  /** The digits before the point in the numeric prefix of `s`. */
  function IntPart(s: string): (ip: string)
    ensures AllDigits(ip) && ip <= s
  {
    s[..LeadingDigits(s)]
  }

  /** The digits after the point in the numeric prefix of `s` ("" when there is no point). */
  function FracPart(s: string): (fp: string)
    ensures AllDigits(fp)
  {
    var i := LeadingDigits(s);
    if i < |s| && s[i] == '.' then
      var rest := s[i + 1..];
      rest[..LeadingDigits(rest)]
    else ""
  }

  /** The value of the numeral "ip.fp". */
  function DecimalValue(ip: string, fp: string): (v: real)
    requires AllDigits(ip) && AllDigits(fp)
    ensures v >= 0.0
  {
    DigitsValue(ip) as real + DigitsValue(fp) as real / Pow10(|fp|) as real
  }

  /** `parseFloat(s)` for unsigned decimal text; `None` stands for `NaN`. */
  function ParseFloat(s: string): (r: Option<real>)
    ensures r.None? <==> !(|s| > 0 && IsDigit(s[0])) && !(|s| > 1 && s[0] == '.' && IsDigit(s[1]))
    ensures r.Some? ==> r.value >= 0.0
  {
    var ip, fp := IntPart(s), FracPart(s);
    if |ip| == 0 && |fp| == 0 then None else Some(DecimalValue(ip, fp))
  }

  lemma LeadingDigitsAll(s: string, rest: string)
    requires AllDigits(s) && (|rest| > 0 ==> !IsDigit(rest[0]))
    ensures LeadingDigits(s + rest) == |s|
    ensures (s + rest)[..|s|] == s
    decreases |s|
  {
    if |s| == 0 {
      assert s + rest == rest;
    } else {
      var t := s + rest;
      assert t[0] == s[0] && IsDigit(t[0]);
      assert t[1..] == s[1..] + rest;
      LeadingDigitsAll(s[1..], rest);
      assert LeadingDigits(t) == 1 + LeadingDigits(t[1..]);
      assert t[..|s|] == [s[0]] + t[1..][..|s| - 1];
    }
  }

  /** Reading a `toFixed` numeral back gives exactly `n / 10^f`. */
  lemma ParseFixedDigits(n: nat, f: nat)
    ensures ParseFloat(FixedDigits(n, f)) == Some(n as real / Pow10(f) as real)
  {
    if f == 0 {
      ParseFixedWhole(n);
    } else {
      ParseFixedFraction(n, f);
    }
  }

  lemma ParseFixedWhole(n: nat)
    ensures ParseFloat(FixedDigits(n, 0)) == Some(n as real / Pow10(0) as real)
  {
    assert FixedDigits(n, 0) == DecimalDigits(n);
    ParseDecimalDigits(n);
    assert n as real / Pow10(0) as real == n as real;
  }

  lemma ParseDecimalDigits(n: nat)
    ensures ParseFloat(DecimalDigits(n)) == Some(n as real)
  {
    var s := DecimalDigits(n);
    LeadingDigitsAll(s, "");
    assert s + "" == s;
    assert IntPart(s) == s && FracPart(s) == "";
    DecimalDigitsRoundTrip(n);
    assert DecimalValue(s, "") == n as real;
  }

  lemma ParseFixedFraction(n: nat, f: nat)
    requires f > 0
    ensures ParseFloat(FixedDigits(n, f)) == Some(n as real / Pow10(f) as real)
  {
    var s := FixedDigits(n, f);
    var k :| 1 <= k < |s| && IsFixedSplit(s, k, n, f);
    var ip, fp := s[..k], s[k + 1..];
    ParseSplit(s, k);
    assert |fp| == f;
    PlaceValue(DigitsValue(ip), DigitsValue(fp), Pow10(f), n);
    assert DecimalValue(ip, fp) == n as real / Pow10(f) as real;
  }

  /** `a + b / p` as a single fraction, for whole numbers `a`, `b` and `p > 0`. */
  lemma PlaceValue(a: nat, b: nat, p: nat, n: nat)
    requires p > 0 && a * p + b == n
    ensures a as real + b as real / p as real == n as real / p as real
  {
    var q := p as real;
    assert (a * p) as real == a as real * q;
    calc {
      (a * p + b) as real / q;
      (a as real * q + b as real) / q;
      a as real + b as real / q;
    }
  }

  /** The parse of "intpart.fraction" with a non-empty integer part. */
  lemma ParseSplit(s: string, k: nat)
    requires 1 <= k < |s| && s[k] == '.' && AllDigits(s[..k]) && AllDigits(s[k + 1..])
    ensures ParseFloat(s) == Some(DecimalValue(s[..k], s[k + 1..]))
  {
    assert s == s[..k] + s[k..];
    LeadingDigitsAll(s[..k], s[k..]);
    assert LeadingDigits(s) == k;
    var rest := s[k + 1..];
    LeadingDigitsAll(rest, "");
    assert rest + "" == rest;
    assert LeadingDigits(rest) == |rest|;
    assert rest[..|rest|] == rest;
    assert IntPart(s) == s[..k];
    assert FracPart(s) == rest;
  }
}

=== FILE: number_format.dfy ===
/** Display formatting of amounts and prices (`formatNumber` in
    src/problem2/src/services/tokenService.ts): `toFixed` rounding followed by
    removal of trailing fractional zeros. */
module NumberFormat {
  import opened Wrappers
  import opened Text
  import opened JsNumber

  predicate AllZeros(t: string) {
    forall i :: 0 <= i < |t| ==> t[i] == '0'
  }

  /** `t` is, as a whole, a word of the regular expression `\.?0+`. */
  predicate MatchesDotZeros(t: string) {
    (|t| >= 1 && AllZeros(t)) || (|t| >= 2 && t[0] == '.' && AllZeros(t[1..]))
  }

  /** Length of the run of '0' characters that ends just before index `n` of `s`. */
  function ZeroRun(s: string, n: nat): (c: nat)
    requires n <= |s|
    ensures c <= n && forall i :: n - c <= i < n ==> s[i] == '0'
    ensures c < n ==> s[n - c - 1] != '0'
  {
    if n == 0 || s[n - 1] != '0' then 0 else 1 + ZeroRun(s, n - 1)
  }

  /** Length of the run of '0' characters at the end of `s`. */
  function TrailingZeros(s: string): (c: nat)
    ensures c <= |s|
  {
    ZeroRun(s, |s|)
  }

  /** `s.replace(/\.?0+$/, '')`: the regular expression matches at the leftmost
      position from which the rest of `s` is a word of `\.?0+`, and that rest
      is removed; with no such position `s` is returned unchanged. */
  function StripTrailingZeros(s: string): (r: string)
    ensures r <= s
  {
    var c := TrailingZeros(s);
    var q := |s| - c;
    if c == 0 then s
    else if q > 0 && s[q - 1] == '.' then s[..q - 1]
    else s[..q]
  }

  /** What `StripTrailingZeros` removes is exactly the leftmost match of
      `\.?0+` that reaches the end of the string, and nothing when there is
      no match. */
  lemma StripTrailingZerosLeftmost(s: string)
    ensures var r := StripTrailingZeros(s);
            |r| < |s| ==> MatchesDotZeros(s[|r|..]) && forall q :: 0 <= q < |r| ==> !MatchesDotZeros(s[q..])
    ensures var r := StripTrailingZeros(s);
            |r| == |s| ==> forall q :: 0 <= q <= |s| ==> !MatchesDotZeros(s[q..])
  {
    var c := TrailingZeros(s);
    var q := |s| - c;
    if c == 0 {
      forall p | 0 <= p <= |s|
        ensures !MatchesDotZeros(s[p..])
      {
        var t := s[p..];
        if |t| >= 1 {
          assert t[|t| - 1] == s[|s| - 1];
        }
      }
    } else if q > 0 && s[q - 1] == '.' {
      assert s[q - 1..][1..] == s[q..];
      forall p | 0 <= p < q - 1
        ensures !MatchesDotZeros(s[p..])
      {
        var t := s[p..];
        assert t[q - 1 - p] == '.';
        assert t[1..][q - 2 - p] == '.';
      }
    } else {
      forall p | 0 <= p < q
        ensures !MatchesDotZeros(s[p..])
      {
        var t := s[p..];
        assert t[q - 1 - p] == s[q - 1];
        if q - 1 - p >= 1 {
          assert t[1..][q - 2 - p] == s[q - 1];
        }
      }
    }
  }

  /** `formatNumber(value, maxDecimals)`, as written. */
  function FormatNumber(value: real, maxDecimals: nat): string {
    if value == 0.0 then "0"
    else if value < 0.01 then ToFixed(value, 8)
    else StripTrailingZeros(ToFixed(value, maxDecimals))
  }

  /** The `maxDecimals` every caller passes (the parameter's default). */
  const DefaultMaxDecimals: nat := 6

  /** `value` rounded to `f` decimals the way `toFixed` rounds. */
  function RoundTo(value: real, f: nat): real {
    RoundHalfUp(value * Pow10(f) as real) as real / Pow10(f) as real
  }

  /** The rounded value is within half a unit in the last decimal of `value`. */
  lemma RoundToError(value: real, f: nat)
    ensures var r := RoundTo(value, f);
            -0.5 / Pow10(f) as real < r - value <= 0.5 / Pow10(f) as real
  {
    var p := Pow10(f) as real;
    var n := RoundHalfUp(value * p);
    assert value * p - 0.5 < n as real <= value * p + 0.5;
    assert n as real / p - value == (n as real - value * p) / p;
  }

  /** The number of decimals `formatNumber` rounds `value` to. */
  function DisplayDecimals(value: real, maxDecimals: nat): nat {
    if value < 0.01 then 8 else maxDecimals
  }

  lemma Pow10Add(a: nat, b: nat)
    ensures Pow10(a + b) == Pow10(a) * Pow10(b)
  {
    if a > 0 {
      Pow10Add(a - 1, b);
    }
  }

  /** Reading `toFixed` output back gives the rounded value. */
  lemma ParseToFixed(value: real, f: nat)
    requires value >= 0.0
    ensures ParseFloat(ToFixed(value, f)) == Some(RoundTo(value, f))
  {
    ParseFixedDigits(Units(value, f), f);
  }

  /** The zero run ending inside a suffix `t` of `s` is the one in `t`, unless
      it fills all of `t`'s first `j` characters, in which case it stops at a
      non-zero character in front of `t`. */
  lemma {:induction false} ZeroRunSuffix(s: string, k: nat, t: string, j: nat)
    requires k <= |s| && s[k..] == t && j <= |t|
    requires k > 0 && s[k - 1] != '0'
    ensures ZeroRun(s, k + j) == ZeroRun(t, j)
    decreases j
  {
    if j > 0 {
      assert s[k + j - 1] == t[j - 1];
      ZeroRunSuffix(s, k, t, j - 1);
    }
  }

  /** For `toFixed` output with at least one decimal, stripping removes the
      fraction's trailing zeros, and the point too when nothing is left after
      it; the integer part is kept as it is. */
  lemma StripFraction(ip: string, fp: string)
    requires |fp| >= 1 && AllDigits(fp)
    ensures var c := TrailingZeros(fp);
            StripTrailingZeros(ip + "." + fp)
              == if c == |fp| then ip else ip + "." + fp[..|fp| - c]
  {
    var s := ip + "." + fp;
    var c := TrailingZeros(fp);
    FractionTrailingZeros(ip, fp);
    assert s[|ip| + 1..] == fp && s[|ip|] == '.';
    if c == |fp| {
      assert s[..|ip|] == ip;
    } else {
      StripAtDigit(s, |ip| + 1, fp, c);
    }
  }

  lemma StripAtDigit(s: string, k: nat, fp: string, c: nat)
    requires k <= |s| && s[k..] == fp && AllDigits(fp)
    requires TrailingZeros(s) == c && c < |fp|
    ensures StripTrailingZeros(s) == s[..k] + fp[..|fp| - c]
  {
    var q := |s| - c;
    assert s[q - 1] != '.' by {
      assert s[q - 1] == fp[|fp| - c - 1];
      assert IsDigit(fp[|fp| - c - 1]);
    }
    assert s[..q] == s[..k] + fp[..|fp| - c] by {
      assert s[..q] == s[..k] + s[k..q];
      assert s[k..q] == fp[..|fp| - c];
    }
  }

  lemma FractionTrailingZeros(ip: string, fp: string)
    ensures TrailingZeros(ip + "." + fp) == TrailingZeros(fp)
  {
    var s := ip + "." + fp;
    assert s[|ip| + 1..] == fp;
    ZeroRunSuffix(s, |ip| + 1, fp, |fp|);
  }

  /** Dropping trailing zeros from a fraction does not change its value. */
  lemma TrimmedFractionValue(ip: string, fp: string, c: nat)
    requires AllDigits(ip) && AllDigits(fp) && c <= |fp|
    requires forall i :: |fp| - c <= i < |fp| ==> fp[i] == '0'
    ensures DecimalValue(ip, fp[..|fp| - c]) == DecimalValue(ip, fp)
  {
    var kept, zeros := fp[..|fp| - c], fp[|fp| - c..];
    assert fp == kept + zeros;
    assert zeros == Zeros(c);
    DigitsValueAppend(kept, zeros);
    DigitsValueZeros(c);
    Pow10Add(|kept|, c);
    CancelFactor(DigitsValue(kept), Pow10(|kept|), Pow10(c));
  }

  lemma CancelFactor(a: nat, p: nat, z: nat)
    requires p > 0 && z > 0
    ensures (a * z) as real / (p * z) as real == a as real / p as real
  {
    var q := a as real / p as real;
    assert q * p as real == a as real;
    assert (a * z) as real == a as real * z as real;
    assert (p * z) as real == p as real * z as real;
    assert q * (p as real * z as real) == a as real * z as real;
  }

  /** Every non-zero value is shown as a prefix of its `toFixed` text at the
      display precision. Below 0.01 (negative values included) that text is
      shown whole, all 8 decimals kept; a negative value keeps its sign. */
  lemma FormatNumberPrefix(value: real, maxDecimals: nat)
    ensures value == 0.0 ==> FormatNumber(value, maxDecimals) == "0"
    ensures value != 0.0 ==>
      FormatNumber(value, maxDecimals) <= ToFixed(value, DisplayDecimals(value, maxDecimals))
    ensures value != 0.0 && value < 0.01 ==> FormatNumber(value, maxDecimals) == ToFixed(value, 8)
    ensures value < 0.0 ==>
      var r := FormatNumber(value, maxDecimals);
      |r| > 0 && r[0] == '-'
  {
  }

  /** `formatNumber` output read back with `parseFloat` is the value rounded to
      8 decimals below 0.01 and to `maxDecimals` decimals otherwise. */
  lemma FormatNumberRoundTrip(value: real, maxDecimals: nat)
    requires value >= 0.0 && maxDecimals >= 1
    ensures ParseFloat(FormatNumber(value, maxDecimals))
         == Some(RoundTo(value, DisplayDecimals(value, maxDecimals)))
  {
    if value == 0.0 {
      ParseZero();
    } else if value < 0.01 {
      ParseToFixed(value, 8);
    } else {
      ParseToFixed(value, maxDecimals);
      StripKeepsValue(Units(value, maxDecimals), maxDecimals);
    }
  }

  lemma ParseZero()
    ensures ParseFloat("0") == Some(RoundTo(0.0, 8))
  {
    assert DecimalDigits(0) == "0";
    ParseDecimalDigits(0);
    assert RoundHalfUp(0.0) == 0;
  }

  lemma StripKeepsValue(n: nat, f: nat)
    requires f >= 1
    ensures ParseFloat(StripTrailingZeros(FixedDigits(n, f))) == ParseFloat(FixedDigits(n, f))
  {
    var s := FixedDigits(n, f);
    var k :| 1 <= k < |s| && IsFixedSplit(s, k, n, f);
    StripPointKeepsValue(s, k);
  }

  /** Stripping a numeral with a point and an integer part keeps its value. */
  lemma StripPointKeepsValue(s: string, k: nat)
    requires 1 <= k && k + 1 < |s| && s[k] == '.' && AllDigits(s[..k]) && AllDigits(s[k + 1..])
    ensures ParseFloat(StripTrailingZeros(s)) == ParseFloat(s)
  {
    ParseSplit(s, k);
    assert s == s[..k] + "." + s[k + 1..];
    StripSplitValue(s[..k], s[k + 1..]);
  }

  /** Stripping "ip.fp" keeps the value of the numeral. */
  lemma StripSplitValue(ip: string, fp: string)
    requires |ip| >= 1 && AllDigits(ip) && |fp| >= 1 && AllDigits(fp)
    ensures ParseFloat(StripTrailingZeros(ip + "." + fp)) == Some(DecimalValue(ip, fp))
  {
    StripFraction(ip, fp);
    var c := TrailingZeros(fp);
    TrimmedFractionValue(ip, fp, c);
    if c == |fp| {
      assert fp[..|fp| - c] == "";
      ParseWhole(ip);
    } else {
      ParseTrimmed(ip, fp[..|fp| - c]);
    }
  }

  lemma ParseWhole(ip: string)
    requires |ip| >= 1 && AllDigits(ip)
    ensures ParseFloat(ip) == Some(DecimalValue(ip, ""))
  {
    LeadingDigitsAll(ip, "");
    assert ip + "" == ip;
    assert IntPart(ip) == ip && FracPart(ip) == "";
  }

  lemma ParseTrimmed(ip: string, fp: string)
    requires |ip| >= 1 && AllDigits(ip) && AllDigits(fp)
    ensures ParseFloat(ip + "." + fp) == Some(DecimalValue(ip, fp))
  {
    var t := ip + "." + fp;
    assert t[..|ip|] == ip && t[|ip| + 1..] == fp;
    ParseSplit(t, |ip|);
  }

  /** As written, `formatNumber` also strips when `maxDecimals` is 0: `toFixed`
      then has no point, and the expression eats the integer's own trailing
      zeros, so 100 is shown as "1". */
  lemma FormatNumberDropsIntegerZeros()
    ensures FormatNumber(100.0, 0) == "1"
    ensures ParseFloat(FormatNumber(100.0, 0)) == Some(1.0) != Some(RoundTo(100.0, 0))
  {
    assert RoundHalfUp(100.0) == 100;
    assert DecimalDigits(100) == "100";
    assert ZeroRun("100", 3) == 2;
    assert RoundHalfUp(100.0 * Pow10(0) as real) == 100;
    ParseDecimalDigits(1);
    assert DecimalDigits(1) == "1";
  }

  /** `formatNumber` with the strip limited to `toFixed` output that has a
      fraction, which is what "remove trailing zeros" means. */
  function FormatNumberCorrected(value: real, maxDecimals: nat): string {
    if value == 0.0 then "0"
    else if value < 0.01 then ToFixed(value, 8)
    else if maxDecimals == 0 then ToFixed(value, 0)
    else StripTrailingZeros(ToFixed(value, maxDecimals))
  }

  /** The corrected formatter reads back as the rounded value for every
      `maxDecimals`, 0 included. */
  lemma FormatNumberCorrectedRoundTrip(value: real, maxDecimals: nat)
    requires value >= 0.0
    ensures ParseFloat(FormatNumberCorrected(value, maxDecimals))
         == Some(RoundTo(value, DisplayDecimals(value, maxDecimals)))
  {
    if value == 0.0 {
      ParseZero();
    } else if value < 0.01 {
      ParseToFixed(value, 8);
    } else if maxDecimals == 0 {
      ParseToFixed(value, 0);
    } else {
      FormatNumberRoundTrip(value, maxDecimals);
    }
  }

  /** The two differ only at `maxDecimals == 0`. */
  lemma FormatNumberCorrectedAgrees(value: real, maxDecimals: nat)
    requires maxDecimals >= 1
    ensures FormatNumberCorrected(value, maxDecimals) == FormatNumber(value, maxDecimals)
  {
  }

  /** A price with one significant decimal keeps exactly that decimal. */
  lemma FormatNumberOneAndAHalf()
    ensures FormatNumber(1.5, DefaultMaxDecimals) == "1.5"
  {
    assert Pow10(6) == 1000000;
    assert Units(1.5, 6) == 1500000;
    assert DecimalDigits(1500000) == "1500000";
    assert ToFixed(1.5, 6) == "1.500000";
    assert ZeroRun("1.500000", 8) == 5;
    assert "1.500000"[..3] == "1.5";
  }

  /** A whole number loses its point together with the zeros. */
  lemma FormatNumberWhole()
    ensures FormatNumber(2.0, DefaultMaxDecimals) == "2"
  {
    assert Pow10(6) == 1000000;
    assert Units(2.0, 6) == 2000000;
    assert DecimalDigits(2000000) == "2000000";
    assert ToFixed(2.0, 6) == "2.000000";
    assert ZeroRun("2.000000", 8) == 6;
  }

  /** Below 0.01 the eight decimals are shown with their trailing zeros. */
  lemma FormatNumberSmall()
    ensures FormatNumber(0.001, DefaultMaxDecimals) == "0.00100000"
  {
    assert Pow10(8) == 100000000;
    assert Units(0.001, 8) == 100000;
    assert DecimalDigits(100000) == "100000";
    assert Zeros(3) == "000";
    assert ToFixed(0.001, 8) == "0.00100000";
  }
}

=== FILE: seqs.dfy ===
/** Facts about sequences shared by the list filters of the components. */
module Seqs {

  /** `s` is `t` with some elements removed, the rest in their order. */
  ghost predicate IsSubsequence<T>(s: seq<T>, t: seq<T>) {
    if |s| == 0 then true
    else if |t| == 0 then false
    else (s[0] == t[0] && IsSubsequence(s[1..], t[1..])) || IsSubsequence(s, t[1..])
  }
}

=== FILE: stable_sort.dfy ===
/** `Array.prototype.sort` with a comparator. Since ECMA-262 10th edition
    (section 22.1.3.27) the sort is stable, so for a consistent comparator the
    result is fully determined: it is ordered by the comparator, it is a
    permutation of the input, and elements the comparator ranks equal keep their
    input order. The model is an insertion sort; `le(a, b)` stands for
    `compare(a, b) <= 0`. */
module StableSort {

  /** A comparator that is consistent in the sense of the standard: every two
      elements are comparable and the order is transitive. */
  ghost predicate TotalPreorder<T(!new)>(le: (T, T) -> bool) {
    && (forall x, y :: le(x, y) || le(y, x))
    && (forall x, y, z :: le(x, y) && le(y, z) ==> le(x, z))
  }

  ghost predicate Sorted<T>(s: seq<T>, le: (T, T) -> bool) {
    forall i, j :: 0 <= i < j < |s| ==> le(s[i], s[j])
  }

  /** The comparator ranks `x` and `k` equal. */
  predicate Equivalent<T>(x: T, k: T, le: (T, T) -> bool) {
    le(x, k) && le(k, x)
  }

  /** The elements of `s` that rank equal to `k`, in their order in `s`. */
  function EquivalentsOf<T>(s: seq<T>, k: T, le: (T, T) -> bool): (r: seq<T>)
    ensures |r| <= |s|
  {
    if |s| == 0 then []
    else (if Equivalent(s[0], k, le) then [s[0]] else []) + EquivalentsOf(s[1..], k, le)
  }

  /** Put `x` after every element that does not rank above it. */
  function Insert<T>(l: seq<T>, x: T, le: (T, T) -> bool): (r: seq<T>)
    ensures multiset(r) == multiset(l) + multiset{x}
  {
    if |l| == 0 then [x]
    else if le(l[0], x) then
      assert l == [l[0]] + l[1..];
      [l[0]] + Insert(l[1..], x, le)
    else [x] + l
  }

  /** Stable sort: insert the elements one by one, left to right. */
  function Sort<T(!new)>(s: seq<T>, le: (T, T) -> bool): (r: seq<T>)
    requires TotalPreorder(le)
    ensures multiset(r) == multiset(s)
    ensures Sorted(r, le)
    ensures forall k :: EquivalentsOf(r, k, le) == EquivalentsOf(s, k, le)
  {
    if |s| == 0 then []
    else
      var init, last := s[..|s| - 1], s[|s| - 1];
      assert s == init + [last];
      var sorted := Sort(init, le);
      InsertSorted(sorted, last, le);
      forall k
        ensures EquivalentsOf(Insert(sorted, last, le), k, le) == EquivalentsOf(s, k, le)
      {
        InsertEquivalents(sorted, last, k, le);
        EquivalentsAppend(init, [last], k, le);
      }
      Insert(sorted, last, le)
  }

  lemma {:induction false} InsertSorted<T(!new)>(l: seq<T>, x: T, le: (T, T) -> bool)
    requires TotalPreorder(le) && Sorted(l, le)
    ensures Sorted(Insert(l, x, le), le)
  {
    if |l| > 0 {
      var r := Insert(l, x, le);
      if le(l[0], x) {
        var tail := Insert(l[1..], x, le);
        InsertSorted(l[1..], x, le);
        forall j | 0 <= j < |tail|
          ensures le(l[0], tail[j])
        {
          assert tail[j] in multiset(tail);
          if tail[j] != x {
            assert tail[j] in multiset(l[1..]);
            var i :| 0 <= i < |l[1..]| && l[1..][i] == tail[j];
            assert l[i + 1] == tail[j];
          }
        }
        assert r == [l[0]] + tail;
      } else {
        assert le(x, l[0]);
        assert r == [x] + l;
        forall j | 0 <= j < |l|
          ensures le(x, l[j])
        {
          if j > 0 {
            assert le(l[0], l[j]);
          }
        }
      }
    }
  }

  lemma {:induction false} EquivalentsAppend<T>(a: seq<T>, b: seq<T>, k: T, le: (T, T) -> bool)
    ensures EquivalentsOf(a + b, k, le) == EquivalentsOf(a, k, le) + EquivalentsOf(b, k, le)
  {
    if |a| == 0 {
      assert a + b == b;
    } else {
      var head := if Equivalent(a[0], k, le) then [a[0]] else [];
      assert (a + b)[0] == a[0];
      assert (a + b)[1..] == a[1..] + b;
      assert EquivalentsOf(a + b, k, le) == head + EquivalentsOf(a[1..] + b, k, le);
      EquivalentsAppend(a[1..], b, k, le);
      assert EquivalentsOf(a, k, le) == head + EquivalentsOf(a[1..], k, le);
    }
  }

  /** No element of `l` ranks equal to `k`. */
  lemma {:induction false} EquivalentsNone<T>(l: seq<T>, k: T, le: (T, T) -> bool)
    requires forall j :: 0 <= j < |l| ==> !Equivalent(l[j], k, le)
    ensures EquivalentsOf(l, k, le) == []
  {
    if |l| > 0 {
      EquivalentsNone(l[1..], k, le);
    }
  }

  /** Inserting `x` appends it to its own class and leaves every other class alone. */
  lemma {:induction false} InsertEquivalents<T(!new)>(l: seq<T>, x: T, k: T, le: (T, T) -> bool)
    requires TotalPreorder(le) && Sorted(l, le)
    ensures EquivalentsOf(Insert(l, x, le), k, le)
         == EquivalentsOf(l, k, le) + (if Equivalent(x, k, le) then [x] else [])
  {
    if |l| == 0 {
      assert Insert(l, x, le) == [x];
      assert EquivalentsOf([x], k, le) == (if Equivalent(x, k, le) then [x] else []) + EquivalentsOf([], k, le);
    } else if le(l[0], x) {
      var r := Insert(l, x, le);
      var head := if Equivalent(l[0], k, le) then [l[0]] else [];
      assert r == [l[0]] + Insert(l[1..], x, le);
      assert r[0] == l[0] && r[1..] == Insert(l[1..], x, le);
      assert EquivalentsOf(r, k, le) == head + EquivalentsOf(Insert(l[1..], x, le), k, le);
      InsertEquivalents(l[1..], x, k, le);
      assert EquivalentsOf(l, k, le) == head + EquivalentsOf(l[1..], k, le);
    } else {
      InsertFrontEquivalents(l, x, k, le);
    }
  }

  /** `x` goes in front of `l`: no element of `l` shares its class. */
  lemma InsertFrontEquivalents<T(!new)>(l: seq<T>, x: T, k: T, le: (T, T) -> bool)
    requires TotalPreorder(le) && Sorted(l, le)
    requires |l| > 0 && !le(l[0], x)
    ensures EquivalentsOf(Insert(l, x, le), k, le)
         == EquivalentsOf(l, k, le) + (if Equivalent(x, k, le) then [x] else [])
  {
    var r := Insert(l, x, le);
    var own := if Equivalent(x, k, le) then [x] else [];
    assert r == [x] + l;
    assert r[0] == x && r[1..] == l;
    assert EquivalentsOf(r, k, le) == own + EquivalentsOf(l, k, le);
    if Equivalent(x, k, le) {
      assert forall j :: 0 <= j < |l| ==> !Equivalent(l[j], k, le);
      EquivalentsNone(l, k, le);
    }
  }

  /** A key function that tells the elements of `s` apart. */
  ghost predicate UniqueKeys<T, K>(s: seq<T>, key: T -> K) {
    forall i, j :: 0 <= i < j < |s| ==> key(s[i]) != key(s[j])
  }

  lemma {:induction false} UniqueKeysCount<T, K>(s: seq<T>, key: T -> K, x: T)
    requires UniqueKeys(s, key)
    ensures multiset(s)[x] <= 1
  {
    if |s| > 0 {
      assert s == [s[0]] + s[1..];
      UniqueKeysCount(s[1..], key, x);
    }
  }

  /** Reordering a sequence whose elements have distinct keys keeps them distinct. */
  lemma PermutationKeepsUniqueKeys<T, K>(a: seq<T>, b: seq<T>, key: T -> K)
    requires UniqueKeys(a, key) && multiset(a) == multiset(b)
    ensures UniqueKeys(b, key)
  {
    forall i, j | 0 <= i < j < |b|
      ensures key(b[i]) != key(b[j])
    {
      if key(b[i]) == key(b[j]) {
        assert b[i] in multiset(a) && b[j] in multiset(a);
        if b[i] == b[j] {
          assert b == b[..j] + b[j..];
          assert b[i] in multiset(b[..j]);
          assert b[j] in multiset(b[j..]);
          assert multiset(b)[b[i]] >= 2;
          UniqueKeysCount(a, key, b[i]);
          assert false;
        }
      }
    }
  }
}

=== FILE: sum_to_n.dfy ===
/** Three ways to sum 1..n (src/problem1/index.js): the closed form, a loop
    and a recursion. `n` is an integer; each returns 0 for n <= 0. */
module SumToN {

  /** `sum_to_n_a`: the arithmetic series formula. */
  function SumA(n: int): (r: int)
    ensures n <= 0 ==> r == 0
    ensures n > 0 ==> 2 * r == n * (n + 1)
  {
    if n <= 0 then 0
    else
      ProductOfConsecutiveEven(n);
      n * (n + 1) / 2
  }

  /** n(n+1) is even, so the formula's division is exact. */
  lemma {:induction false} ProductOfConsecutiveEven(n: nat)
    ensures (n * (n + 1)) % 2 == 0
  {
    if n > 0 {
      ProductOfConsecutiveEven(n - 1);
      assert n * (n + 1) == (n - 1) * n + 2 * n;
    }
  }

  /** `sum_to_n_b`: add 1, 2, ..., n in a loop (which never runs for n <= 0). */
  method SumB(n: int) returns (sum: int)
    ensures n <= 0 ==> sum == 0
    ensures n > 0 ==> 2 * sum == n * (n + 1)
  {
    sum := 0;
    var i := 1;
    while i <= n
      invariant 1 <= i && (n >= 1 ==> i <= n + 1) && (n < 1 ==> i == 1)
      invariant 2 * sum == (i - 1) * i
    {
      sum := sum + i;
      i := i + 1;
    }
  }

  /** `sum_to_n_c`: n plus the sum up to n - 1. */
  function SumC(n: int): (r: int)
    ensures n <= 0 ==> r == 0
    ensures n > 0 ==> 2 * r == n * (n + 1)
    decreases if n <= 0 then 0 else n
  {
    if n <= 0 then 0 else n + SumC(n - 1)
  }

  /** The three agree on every integer. */
  method AllAgree(n: int) returns (a: int, b: int, c: int)
    ensures a == b == c
    ensures a == (if n <= 0 then 0 else n * (n + 1) / 2)
  {
    a := SumA(n);
    b := SumB(n);
    c := SumC(n);
  }

  /** The recursion's step: one call adds n to the previous sum. */
  lemma SumCStep(n: int)
    requires n > 0
    ensures SumC(n) == n + SumC(n - 1)
    ensures SumC(n) - SumC(n - 1) == SumA(n) - SumA(n - 1)
  {
  }
}

=== FILE: swap_form.dfy ===
/** The swap form and its submission flow (src/problem2/src/App.tsx).

    The page state is a record: the three form fields, the validation errors
    the form library holds, the derived "you receive" text, and the flags of
    the submission flow. Every user action, the settlement of the simulated
    swap and the firing of the reset timer is an event; `Step` applies one
    event completely, including the effect that re-derives the received
    amount. The catalog, the wallet and the two number printers are fixed
    for a run. */
module SwapForm {
  import opened Wrappers
  import opened Text
  import opened JsNumber
  import opened TokenService
  import opened NumberFormat
  import opened WalletService
  import CurrencyInput

  datatype FormData = FormData(fromToken: string, toToken: string, fromAmount: string)

  const DefaultValues := FormData("USD", "ETH", "")

  /** `Number.prototype.toString` (used by MAX) and `toLocaleString` (used in
      the insufficient-balance message); both are left uninterpreted. */
  datatype Env = Env(numberToString: real -> string, localeString: real -> string)

  /** What a run reads but never changes. */
  datatype Context = Context(tokens: seq<Token>, wallet: seq<TokenBalance>, env: Env)

  /** Every catalog price is positive, as `Catalog` guarantees. */
  predicate PricesPositive(tokens: seq<Token>) {
    forall i :: 0 <= i < |tokens| ==> tokens[i].price > 0.0
  }

  /** `tokens.find(t => t.symbol === symbol) || null`. */
  function FindToken(tokens: seq<Token>, symbol: string): (r: Option<Token>)
    ensures r.Some? ==> r.value in tokens && r.value.symbol == symbol
    ensures r.None? <==> forall i :: 0 <= i < |tokens| ==> tokens[i].symbol != symbol
  {
    if |tokens| == 0 then None
    else if tokens[0].symbol == symbol then Some(tokens[0])
    else
      var r := FindToken(tokens[1..], symbol);
      assert forall i :: 1 <= i < |tokens| ==> tokens[i] == tokens[1..][i - 1];
      r
  }

  lemma FoundPricePositive(tokens: seq<Token>, symbol: string)
    requires PricesPositive(tokens) && FindToken(tokens, symbol).Some?
    ensures FindToken(tokens, symbol).value.price > 0.0
  {
    var t := FindToken(tokens, symbol).value;
    var i :| 0 <= i < |tokens| && tokens[i] == t;
  }

  // ---------------------------------------------------------------------------
  // Validation rules

  const FromTokenRequired := "Please select a token to swap from"
  const ToTokenRequired := "Please select a token to swap to"
  const SameToken := "Cannot swap to the same token"
  const AmountRequired := "Please enter an amount"

  /** `Insufficient balance. You have ${balance.toLocaleString()} ${symbol}`. */
  function InsufficientMessage(env: Env, balance: real, symbol: string): string {
    "Insufficient" + " balance. You have " + env.localeString(balance) + " " + symbol
  }

  /** The `fromToken` rule: required. */
  function FromTokenError(form: FormData): (e: Option<string>)
    ensures e.Some? <==> form.fromToken == ""
  {
    if form.fromToken == "" then Some(FromTokenRequired) else None
  }

  /** The `toToken` rules: required, then `notSame`. */
  function ToTokenError(form: FormData): (e: Option<string>)
    ensures e == Some(ToTokenRequired) <==> form.toToken == ""
    ensures e == Some(SameToken) <==> form.toToken != "" && form.toToken == form.fromToken
    ensures e.None? <==> form.toToken != "" && form.toToken != form.fromToken
  {
    if form.toToken == "" then Some(ToTokenRequired)
    else if form.fromToken != "" && form.toToken == form.fromToken then Some(SameToken)
    else None
  }

  /** The `fromAmount` rules: required, then `sufficientBalance`, which passes
      when the from-token is not in the catalog or the text is not a number. */
  function FromAmountError(ctx: Context, form: FormData): (e: Option<string>)
    ensures form.fromAmount == "" ==> e == Some(AmountRequired)
    ensures form.fromAmount != "" ==>
      (e.Some? <==> FindToken(ctx.tokens, form.fromToken).Some? && ParseFloat(form.fromAmount).Some?
                    && var b := GetTokenBalance(ctx.wallet, form.fromToken);
                       b == 0.0 || ParseFloat(form.fromAmount).value > b)
    ensures form.fromAmount != "" && e.Some? ==>
      e.value == InsufficientMessage(ctx.env, GetTokenBalance(ctx.wallet, form.fromToken), form.fromToken)
  {
    if form.fromAmount == "" then Some(AmountRequired)
    else match FindToken(ctx.tokens, form.fromToken)
      case None => None
      case Some(t) =>
        match ParseFloat(form.fromAmount)
        case None => None
        case Some(amount) =>
          var balance := GetTokenBalance(ctx.wallet, t.symbol);
          if balance == 0.0 || amount > balance then Some(InsufficientMessage(ctx.env, balance, t.symbol))
          else None
  }

  /** The insufficient-balance message is shown in the warning style. */
  lemma InsufficientMessageFlagged(env: Env, balance: real, symbol: string)
    ensures CurrencyInput.HasInsufficientBalance(Some(InsufficientMessage(env, balance, symbol)))
  {
    var rest := " balance. You have " + env.localeString(balance) + " " + symbol;
    assert InsufficientMessage(env, balance, symbol) == "Insufficient" + rest;
    ToLowerAppend("Insufficient", rest);
    LowerInsufficient();
    ContainsPrefix("insufficient", ToLower(rest));
  }

  lemma LowerInsufficient()
    ensures ToLower("Insufficient") == "insufficient"
  {
    var s, t := "Insufficient", "insufficient";
    forall i | 0 <= i < |s|
      ensures ToLowerChar(s[i]) == t[i]
    {
    }
    LowerEach(s, t);
  }

  lemma LowerEach(s: string, t: string)
    requires |s| == |t| && forall i :: 0 <= i < |s| ==> ToLowerChar(s[i]) == t[i]
    ensures ToLower(s) == t
  {
  }

  /** A non-empty text that is not a number, such as ".", passes the balance
      rule whatever the balance. */
  lemma PointAloneHasNoAmountError(ctx: Context, fromToken: string, toToken: string)
    ensures FromAmountError(ctx, FormData(fromToken, toToken, ".")).None?
  {
  }

  datatype Errors = Errors(fromToken: Option<string>, toToken: Option<string>, fromAmount: Option<string>)

  const NoErrors := Errors(None, None, None)

  /** Every rule run on the current values (`trigger()` and `handleSubmit`). */
  function ValidateAll(ctx: Context, form: FormData): (e: Errors)
    ensures e == NoErrors <==>
      form.fromToken != "" && form.toToken != "" && form.toToken != form.fromToken
      && FromAmountError(ctx, form).None?
  {
    Errors(FromTokenError(form), ToTokenError(form), FromAmountError(ctx, form))
  }

  // ---------------------------------------------------------------------------
  // Derived values

  /** The toAmount effect: the converted amount, formatted, when both tokens are
      in the catalog and the amount text is a positive number; "" otherwise. */
  function DerivedToAmount(tokens: seq<Token>, form: FormData): string
    requires PricesPositive(tokens)
  {
    var from, to := FindToken(tokens, form.fromToken), FindToken(tokens, form.toToken);
    if from.Some? && to.Some? && form.fromAmount != "" then
      var amount := ParseFloat(form.fromAmount);
      if amount.Some? && amount.value > 0.0 then
        FoundPricePositive(tokens, form.fromToken);
        FormatNumber(ConvertAmount(amount.value, from.value, to.value), DefaultMaxDecimals)
      else ""
    else ""
  }

  /** The received amount is shown exactly when both tokens are in the catalog
      and the amount is a positive number, and it reads back as the converted
      amount rounded for display. */
  lemma DerivedToAmountMeaning(tokens: seq<Token>, form: FormData)
    requires PricesPositive(tokens)
    ensures var r := DerivedToAmount(tokens, form);
      r != "" <==>
        FindToken(tokens, form.fromToken).Some? && FindToken(tokens, form.toToken).Some?
        && ParseFloat(form.fromAmount).Some? && ParseFloat(form.fromAmount).value > 0.0
    ensures var r := DerivedToAmount(tokens, form);
      r != "" ==>
        var converted := ConvertAmount(ParseFloat(form.fromAmount).value,
                                       FindToken(tokens, form.fromToken).value,
                                       FindToken(tokens, form.toToken).value);
        ParseFloat(r) == Some(RoundTo(converted, DisplayDecimals(converted, DefaultMaxDecimals)))
  {
    var from, to := FindToken(tokens, form.fromToken), FindToken(tokens, form.toToken);
    var amount := ParseFloat(form.fromAmount);
    if from.Some? && to.Some? && amount.Some? && amount.value > 0.0 {
      FoundPricePositive(tokens, form.fromToken);
      FoundPricePositive(tokens, form.toToken);
      var converted := ConvertAmount(amount.value, from.value, to.value);
      ConvertedPositive(amount.value, from.value, to.value);
      FormatNumberRoundTrip(converted, DefaultMaxDecimals);
      NonEmptyDisplay(converted);
    }
  }

  /** With an empty amount nothing is received. */
  lemma EmptyAmountDerivesNothing(tokens: seq<Token>, form: FormData)
    requires PricesPositive(tokens) && form.fromAmount == ""
    ensures DerivedToAmount(tokens, form) == ""
  {
  }

  lemma ConvertedPositive(amount: real, from: Token, to: Token)
    requires amount > 0.0 && from.price > 0.0 && to.price > 0.0
    ensures ConvertAmount(amount, from, to) > 0.0
  {
    var rate := from.price / to.price;
    assert rate > 0.0;
    assert ConvertAmount(amount, from, to) == amount * rate;
  }

  /** A formatted positive number is never the empty text. */
  lemma NonEmptyDisplay(value: real)
    requires value > 0.0
    ensures FormatNumber(value, DefaultMaxDecimals) != ""
  {
    FormatNumberRoundTrip(value, DefaultMaxDecimals);
    assert ParseFloat(FormatNumber(value, DefaultMaxDecimals)).Some?;
  }

  /** `isDisabled`: note that it does not look at the toToken error. */
  predicate IsDisabled(ctx: Context, form: FormData, errors: Errors) {
    errors.fromAmount.Some? || FindToken(ctx.tokens, form.fromToken).None?
    || FindToken(ctx.tokens, form.toToken).None? || form.fromAmount == ""
  }

  /** The `balance` the amount field is given: the wallet balance of the
      from-token, `undefined` when it is not in the catalog. */
  function AmountFieldBalance(ctx: Context, form: FormData): Option<real> {
    if FindToken(ctx.tokens, form.fromToken).Some? then Some(GetTokenBalance(ctx.wallet, form.fromToken)) else None
  }

  /** The `tokenSymbol` the amount field is given: `fromToken?.symbol`. */
  function AmountFieldSymbol(ctx: Context, form: FormData): Option<string> {
    match FindToken(ctx.tokens, form.fromToken)
    case None => None
    case Some(t) => Some(t.symbol)
  }

  /** The amount field shows the balance, and MAX with it, exactly when the
      from-token is in the catalog under a non-empty symbol; the balance is
      flagged low exactly when it is strictly between 0 and 10. */
  lemma AmountFieldFlags(ctx: Context, form: FormData)
    ensures var balance, symbol := AmountFieldBalance(ctx, form), AmountFieldSymbol(ctx, form);
            (CurrencyInput.ShowBalance(balance, symbol)
             <==> FindToken(ctx.tokens, form.fromToken).Some? && form.fromToken != "")
    ensures var balance, symbol := AmountFieldBalance(ctx, form), AmountFieldSymbol(ctx, form);
            CurrencyInput.ShowMax(balance, symbol, true, false) <==> CurrencyInput.ShowBalance(balance, symbol)
    ensures (CurrencyInput.IsLowBalance(AmountFieldBalance(ctx, form))
             <==> FindToken(ctx.tokens, form.fromToken).Some?
                  && 0.0 < GetTokenBalance(ctx.wallet, form.fromToken) < 10.0)
  {
  }

  // ---------------------------------------------------------------------------
  // The page state machine

  datatype SwapState = SwapState(
    form: FormData,
    errors: Errors,
    toAmount: string,
    showConfirmModal: bool,
    isSubmitting: bool,
    submitSuccess: bool,
    settling: nat,       // simulated settlements started and not yet resolved
    pendingResets: nat)  // reset timers started and not yet fired

  /** The Preview button is disabled: `disabled={isDisabled || submitSuccess}`
      plus `loading={isSubmitting}`, which the button turns into `disabled`. */
  predicate PreviewDisabled(ctx: Context, st: SwapState) {
    IsDisabled(ctx, st.form, st.errors) || st.submitSuccess || st.isSubmitting
  }

  /** What the enabled Preview button guarantees: both tokens are in the
      catalog, an amount is entered with no amount error, and no submission is
      in flight or just succeeded. The toToken and fromToken errors play no
      part. */
  lemma PreviewGate(ctx: Context, st: SwapState, e: Option<string>, e': Option<string>)
    ensures !PreviewDisabled(ctx, st) ==>
      && FindToken(ctx.tokens, st.form.fromToken).Some? && FindToken(ctx.tokens, st.form.toToken).Some?
      && st.form.fromAmount != "" && st.errors.fromAmount.None?
      && !st.isSubmitting && !st.submitSuccess
    ensures PreviewDisabled(ctx, st) == PreviewDisabled(ctx, st.(errors := st.errors.(toToken := e, fromToken := e')))
  {
  }

  /** The button can be enabled while nothing is received: "." is a
      non-empty amount without an amount error, yet it is not a number. */
  lemma PreviewEnabledWithoutQuote()
    ensures var ctx := Context([Token("ETH", 2.0, IconUrl("ETH")), Token("USD", 1.0, IconUrl("USD"))],
                               [TokenBalance("USD", 5.0)], Env(_ => "", _ => ""));
            var form := FormData("USD", "ETH", ".");
            var st := SwapState(form, ValidateAll(ctx, form), DerivedToAmount(ctx.tokens, form), false, false, false, 0, 0);
            PricesPositive(ctx.tokens) && !PreviewDisabled(ctx, st) && st.toAmount == ""
  {
    var ctx := Context([Token("ETH", 2.0, IconUrl("ETH")), Token("USD", 1.0, IconUrl("USD"))],
                       [TokenBalance("USD", 5.0)], Env(_ => "", _ => ""));
    var form := FormData("USD", "ETH", ".");
    PointAloneHasNoAmountError(ctx, "USD", "ETH");
    assert ParseFloat(".").None?;
  }

  datatype SwapEvent =
    | EditAmount(text: string)    // a keystroke in the amount field
    | SelectFrom(symbol: string)  // a pick in the From selector
    | SelectTo(symbol: string)    // a pick in the To selector
    | SwapDirection               // the arrow button
    | Max                         // the MAX button
    | Preview                     // submitting the form
    | Confirm                     // Confirm Swap in the modal
    | SettleOk                    // the simulated settlement resolves
    | SettleFail                  // the simulated settlement rejects
    | Close                       // Cancel in the modal
    | ResetTimer                  // the 3000 ms timer fires

  function Initial(ctx: Context): SwapState
    requires PricesPositive(ctx.tokens)
  {
    SwapState(DefaultValues, NoErrors, DerivedToAmount(ctx.tokens, DefaultValues), false, false, false, 0, 0)
  }

  /** New form values, with the effect that re-derives the received amount. */
  function WithForm(ctx: Context, st: SwapState, form: FormData, errors: Errors): SwapState
    requires PricesPositive(ctx.tokens)
  {
    st.(form := form, errors := errors, toAmount := DerivedToAmount(ctx.tokens, form))
  }

  /** One event, run to completion. Events whose control is absent or
      disabled change nothing. */
  function Step(ctx: Context, st: SwapState, ev: SwapEvent): SwapState
    requires PricesPositive(ctx.tokens)
  {
    match ev
    case EditAmount(text) =>
      // mode 'onChange' re-runs the rules of the edited field only
      if CurrencyInput.DigitsAndOneDot(text) then
        var form := st.form.(fromAmount := text);
        WithForm(ctx, st, form, st.errors.(fromAmount := FromAmountError(ctx, form)))
      else st
    case SelectFrom(symbol) =>
      // field.onChange, then trigger() re-runs every rule
      var form := st.form.(fromToken := symbol);
      WithForm(ctx, st, form, ValidateAll(ctx, form))
    case SelectTo(symbol) =>
      var form := st.form.(toToken := symbol);
      WithForm(ctx, st, form, st.errors.(toToken := ToTokenError(form)))
    case SwapDirection =>
      // setValue does not validate
      WithForm(ctx, st, FormData(st.form.toToken, st.form.fromToken, st.toAmount), st.errors)
    case Max =>
      // the button is rendered only with the balance, under a non-empty symbol,
      // and `handleMaxClick` checks `fromToken` once more
      var from := FindToken(ctx.tokens, st.form.fromToken);
      if from.None? || from.value.symbol == "" then st
      else
        var balance := GetTokenBalance(ctx.wallet, from.value.symbol);
        WithForm(ctx, st, st.form.(fromAmount := ctx.env.numberToString(balance)), st.errors.(fromAmount := None))
    case Preview =>
      if PreviewDisabled(ctx, st) then st
      else
        var errors := ValidateAll(ctx, st.form);
        // handleSubmit calls onSubmit, which only ever opens the modal, when every rule passes
        st.(errors := errors, showConfirmModal := st.showConfirmModal || errors == NoErrors)
    case Confirm =>
      if st.showConfirmModal && !st.isSubmitting then
        st.(isSubmitting := true, submitSuccess := false, settling := st.settling + 1)
      else st
    case SettleOk =>
      if st.settling > 0 then
        st.(submitSuccess := true, showConfirmModal := false, isSubmitting := false,
            settling := st.settling - 1, pendingResets := st.pendingResets + 1)
      else st
    case SettleFail =>
      if st.settling > 0 then st.(isSubmitting := false, settling := st.settling - 1)
      else st
    case Close =>
      if st.isSubmitting then st else st.(showConfirmModal := false)
    case ResetTimer =>
      if st.pendingResets > 0 then
        WithForm(ctx, st, st.form.(fromAmount := ""), st.errors)
          .(submitSuccess := false, pendingResets := st.pendingResets - 1)
      else st
  }

  /** What each event may change. The token symbols change only on a pick or
      a swap; the amount only on a keystroke, a swap, MAX or the reset; the
      errors only when a rule runs or MAX clears one; the modal only on
      Preview, success or Cancel; the in-flight flag only on Confirm and
      settlement. Whenever the form changes, the received amount is re-derived. */
  lemma StepFrame(ctx: Context, st: SwapState, ev: SwapEvent)
    requires PricesPositive(ctx.tokens)
    ensures var r := Step(ctx, st, ev);
            && (!(ev.SelectFrom? || ev.SwapDirection?) ==> r.form.fromToken == st.form.fromToken)
            && (!(ev.SelectTo? || ev.SwapDirection?) ==> r.form.toToken == st.form.toToken)
            && (!(ev.EditAmount? || ev.SwapDirection? || ev.Max? || ev.ResetTimer?) ==> r.form.fromAmount == st.form.fromAmount)
            && (!(ev.EditAmount? || ev.SelectFrom? || ev.SelectTo? || ev.Max? || ev.Preview?) ==> r.errors == st.errors)
            && (!(ev.Preview? || ev.SettleOk? || ev.Close?) ==> r.showConfirmModal == st.showConfirmModal)
            && (!(ev.Confirm? || ev.SettleOk? || ev.SettleFail?) ==> r.isSubmitting == st.isSubmitting)
            && (r.form != st.form ==> r.toAmount == DerivedToAmount(ctx.tokens, r.form))
  {
  }

  /** The invariant of the page: the received amount is always the derived
      one, at most one settlement and one reset timer are pending and each
      exactly while its flag is set, a submission happens inside the open
      modal, and the modal is closed while the success banner shows. */
  predicate Inv(ctx: Context, st: SwapState)
    requires PricesPositive(ctx.tokens)
  {
    st.toAmount == DerivedToAmount(ctx.tokens, st.form) && FlagsInv(st)
  }

  /** The part of the invariant about submission: pending settlements and
      reset timers, and the modal. */
  predicate FlagsInv(st: SwapState) {
    && st.settling == (if st.isSubmitting then 1 else 0)
    && st.pendingResets == (if st.submitSuccess then 1 else 0)
    && (st.isSubmitting ==> st.showConfirmModal)
    && (st.submitSuccess ==> !st.showConfirmModal)
  }

  lemma InitialInv(ctx: Context)
    requires PricesPositive(ctx.tokens)
    ensures Inv(ctx, Initial(ctx))
    ensures Initial(ctx).toAmount == ""
  {
  }

  lemma StepInv(ctx: Context, st: SwapState, ev: SwapEvent)
    requires PricesPositive(ctx.tokens) && Inv(ctx, st)
    ensures Inv(ctx, Step(ctx, st, ev))
  {
  }

  /** A sequence of events applied in order. */
  function Run(ctx: Context, st: SwapState, evs: seq<SwapEvent>): SwapState
    requires PricesPositive(ctx.tokens)
    decreases |evs|
  {
    if |evs| == 0 then st else Run(ctx, Step(ctx, st, evs[0]), evs[1..])
  }

  /** Every state the page reaches from its start satisfies the invariant. */
  lemma {:induction false} RunInv(ctx: Context, st: SwapState, evs: seq<SwapEvent>)
    requires PricesPositive(ctx.tokens) && Inv(ctx, st)
    ensures Inv(ctx, Run(ctx, st, evs))
    decreases |evs|
  {
    if |evs| > 0 {
      var next := Step(ctx, st, evs[0]);
      StepInv(ctx, st, evs[0]);
      assert Run(ctx, st, evs) == Run(ctx, next, evs[1..]);
      RunInv(ctx, next, evs[1..]);
    }
  }

  // ---------------------------------------------------------------------------
  // Properties of single events

  /** Confirming twice in a row starts one settlement. */
  lemma DoubleConfirmSettlesOnce(ctx: Context, st: SwapState)
    requires PricesPositive(ctx.tokens) && FlagsInv(st)
    ensures Step(ctx, Step(ctx, st, Confirm), Confirm).settling <= 1
    ensures Step(ctx, Step(ctx, st, Confirm), Confirm) == Step(ctx, st, Confirm)
  {
  }

  /** While a submission is in flight, Cancel does nothing. */
  lemma CloseWhileSubmitting(ctx: Context, st: SwapState)
    requires PricesPositive(ctx.tokens) && st.isSubmitting
    ensures Step(ctx, st, Close) == st
  {
  }

  /** A failed settlement clears the in-flight flag and keeps the modal open. */
  lemma FailureKeepsModal(ctx: Context, st: SwapState)
    requires PricesPositive(ctx.tokens) && FlagsInv(st) && st.isSubmitting
    ensures var next := Step(ctx, st, SettleFail);
            next.showConfirmModal && !next.isSubmitting && !next.submitSuccess && next.form == st.form
  {
  }

  /** A successful settlement closes the modal, shows success, and arms the
      reset, which then clears both amounts and the success banner. */
  lemma SuccessThenReset(ctx: Context, st: SwapState)
    requires PricesPositive(ctx.tokens) && FlagsInv(st) && st.isSubmitting
    ensures var done := Step(ctx, st, SettleOk);
            done.submitSuccess && !done.showConfirmModal && !done.isSubmitting
            && done.form == st.form && PreviewDisabled(ctx, done)
    ensures var reset := Step(ctx, Step(ctx, st, SettleOk), ResetTimer);
            reset.form.fromAmount == "" && reset.toAmount == "" && !reset.submitSuccess
            && reset.pendingResets == 0
  {
    var done := Step(ctx, st, SettleOk);
    SettleOkShowsSuccess(ctx, st);
    ResetClears(ctx, done);
  }

  lemma SettleOkShowsSuccess(ctx: Context, st: SwapState)
    requires PricesPositive(ctx.tokens) && FlagsInv(st) && st.isSubmitting
    ensures var done := Step(ctx, st, SettleOk);
            done.submitSuccess && !done.showConfirmModal && !done.isSubmitting
            && done.form == st.form && done.pendingResets == 1
  {
  }

  lemma ResetClears(ctx: Context, st: SwapState)
    requires PricesPositive(ctx.tokens) && st.pendingResets == 1
    ensures var reset := Step(ctx, st, ResetTimer);
            reset.form.fromAmount == "" && reset.toAmount == "" && !reset.submitSuccess
            && reset.pendingResets == 0
  {
    EmptyAmountDerivesNothing(ctx.tokens, st.form.(fromAmount := ""));
  }

  /** After Preview the modal is open exactly when it already was, or the
      button is enabled and every rule passes; Preview never closes it. */
  lemma PreviewOpensModal(ctx: Context, st: SwapState)
    requires PricesPositive(ctx.tokens)
    ensures Step(ctx, st, Preview).showConfirmModal <==>
      st.showConfirmModal || (!PreviewDisabled(ctx, st) && ValidateAll(ctx, st.form) == NoErrors)
  {
  }

  /** The same token on both sides never reaches the modal: the Preview button
      ignores the toToken error, but the submit handler re-runs the rules. */
  lemma SameTokenNeverPreviews(ctx: Context, st: SwapState)
    requires PricesPositive(ctx.tokens) && !st.showConfirmModal
    requires st.form.fromToken != "" && st.form.toToken == st.form.fromToken
    ensures !Step(ctx, st, Preview).showConfirmModal
  {
  }

  /** The toToken error alone does not disable Preview. */
  lemma SameTokenKeepsPreviewEnabled()
    ensures var ctx := Context([Token("ETH", 2.0, IconUrl("ETH"))], [TokenBalance("ETH", 5.0)], Env(_ => "", _ => ""));
            var st := SwapState(FormData("ETH", "ETH", "1"), Errors(None, Some(SameToken), None), "1", false, false, false, 0, 0);
            PricesPositive(ctx.tokens) && !PreviewDisabled(ctx, st) && st.errors.toToken.Some?
  {
  }

  /** Swapping exchanges the symbols and moves the received amount into the
      amount field; swapping twice restores both symbols. */
  lemma SwapTwice(ctx: Context, st: SwapState)
    requires PricesPositive(ctx.tokens)
    ensures var once := Step(ctx, st, SwapDirection);
            once.form == FormData(st.form.toToken, st.form.fromToken, st.toAmount)
            && once.errors == st.errors
    ensures var twice := Step(ctx, Step(ctx, st, SwapDirection), SwapDirection);
            twice.form.fromToken == st.form.fromToken && twice.form.toToken == st.form.toToken
  {
  }

  /** MAX does nothing without a from-token in the catalog; otherwise it fills
      in the printed balance and clears the amount error. */
  lemma MaxFillsBalance(ctx: Context, st: SwapState)
    requires PricesPositive(ctx.tokens)
    ensures !CurrencyInput.ShowMax(AmountFieldBalance(ctx, st.form), AmountFieldSymbol(ctx, st.form), true, false)
            ==> Step(ctx, st, Max) == st
    ensures FindToken(ctx.tokens, st.form.fromToken).None? ==> Step(ctx, st, Max) == st
    ensures FindToken(ctx.tokens, st.form.fromToken).Some? && st.form.fromToken != "" ==>
      var next := Step(ctx, st, Max);
      next.form.fromAmount == ctx.env.numberToString(GetTokenBalance(ctx.wallet, st.form.fromToken))
      && next.errors.fromAmount.None? && next.form.fromToken == st.form.fromToken
  {
  }

  /** A keystroke the amount grammar rejects leaves the page unchanged. */
  lemma RejectedKeystroke(ctx: Context, st: SwapState, text: string)
    requires PricesPositive(ctx.tokens) && !CurrencyInput.MatchesAmountPattern(text)
    ensures Step(ctx, st, EditAmount(text)) == st
  {
    CurrencyInput.PatternCharacters(text);
  }
}

=== FILE: text.dfy ===
/** String helpers shared by the components: ASCII case mapping (the model of
    `String.prototype.toLowerCase`) and substring search (the model of
    `String.prototype.includes`). */
module Text {

  predicate IsDigit(c: char) {
    '0' <= c <= '9'
  }

  predicate IsUpper(c: char) {
    'A' <= c <= 'Z'
  }

  predicate IsLower(c: char) {
    'a' <= c <= 'z'
  }

  function ToLowerChar(c: char): (d: char)
    ensures IsUpper(c) ==> IsLower(d) && d as int == c as int + 32
    ensures !IsUpper(c) ==> d == c
  {
    if IsUpper(c) then (c as int + 32) as char else c
  }

  function ToUpperChar(c: char): (d: char)
    ensures IsLower(c) ==> IsUpper(d) && d as int == c as int - 32
    ensures !IsLower(c) ==> d == c
  {
    if IsLower(c) then (c as int - 32) as char else c
  }

  /** `toLowerCase`, over ASCII letters only. */
  function ToLower(s: string): (r: string)
    ensures |r| == |s|
    ensures forall i :: 0 <= i < |s| ==> r[i] == ToLowerChar(s[i])
  {
    if |s| == 0 then [] else [ToLowerChar(s[0])] + ToLower(s[1..])
  }

  /** `toUpperCase`, over ASCII letters only. */
  function ToUpper(s: string): (r: string)
    ensures |r| == |s|
    ensures forall i :: 0 <= i < |s| ==> r[i] == ToUpperChar(s[i])
  {
    if |s| == 0 then [] else [ToUpperChar(s[0])] + ToUpper(s[1..])
  }

  /** Two strings are equal up to ASCII case. */
  predicate SameIgnoringCase(a: string, b: string) {
    ToLower(a) == ToLower(b)
  }

  lemma ToLowerAppend(a: string, b: string)
    ensures ToLower(a + b) == ToLower(a) + ToLower(b)
  {
  }

  /** Upper-casing a string does not change it up to case, so a search term
      typed in capitals behaves like the same term in lower case. */
  lemma ToUpperSameIgnoringCase(s: string)
    ensures SameIgnoringCase(ToUpper(s), s)
  {
    var u := ToUpper(s);
    forall i | 0 <= i < |s|
      ensures ToLower(u)[i] == ToLower(s)[i]
    {
      var c := s[i];
      if IsLower(c) {
        assert ToLowerChar(ToUpperChar(c)) == c;
      } else if IsUpper(c) {
        assert ToUpperChar(c) == c;
      }
    }
  }

  /** `t` occurs in `s` starting at index `i`. */
  predicate OccursAt(s: string, t: string, i: int) {
    0 <= i && i + |t| <= |s| && s[i..i + |t|] == t
  }

  /** Declarative meaning of `s.includes(t)`: some window of `s` equals `t`. */
  ghost predicate Occurs(s: string, t: string) {
    exists i :: OccursAt(s, t, i)
  }

  /** Executable `s.includes(t)`: try every start position from the left. */
  function Contains(s: string, t: string): (b: bool)
    ensures b <==> Occurs(s, t)
  {
    if t <= s then
      assert OccursAt(s, t, 0);
      true
    else if |s| == 0 then
      assert forall i :: !OccursAt(s, t, i);
      false
    else
      var rest := Contains(s[1..], t);
      ContainsShift(s, t);
      rest
  }

  /** An occurrence past the head is an occurrence in the tail, and back. */
  lemma ContainsShift(s: string, t: string)
    requires |s| > 0 && !(t <= s)
    ensures Occurs(s, t) <==> Occurs(s[1..], t)
  {
    if Occurs(s, t) {
      var i :| OccursAt(s, t, i);
      assert s[1..][i - 1..i - 1 + |t|] == s[i..i + |t|];
      assert OccursAt(s[1..], t, i - 1);
    }
    if Occurs(s[1..], t) {
      var i :| OccursAt(s[1..], t, i);
      assert s[i + 1..i + 1 + |t|] == s[1..][i..i + |t|];
      assert OccursAt(s, t, i + 1);
    }
  }

  lemma ContainsEmpty(s: string)
    ensures Contains(s, "")
  {
  }

  /** A string that starts with `t` contains `t`. */
  lemma ContainsPrefix(t: string, rest: string)
    ensures Contains(t + rest, t)
  {
    assert OccursAt(t + rest, t, 0);
  }
}

=== FILE: token_service.dfy ===
/** The price catalog and the conversion maths of the swap engine
    (src/problem2/src/services/tokenService.ts).

    The feed is a list of price records. It is reduced to one token per
    currency: a JavaScript `Map` keyed by currency keeps the record with the
    latest date, a later record replacing the stored one only when its date is
    strictly later, so on a tie the first-seen record stays. Records without a
    positive price are dropped after that reduction. The survivors become
    tokens with a synthesised icon address and are sorted by symbol with a
    stable sort. */
module TokenService {
  import opened Seqs
  import opened Wrappers
  import opened JsNumber
  import opened Text
  import StableSort

  /** One feed record. `date` is the parsed timestamp; `price` is `None` when
      the record has no usable price (missing, `null` or `NaN`). */
  datatype TokenPrice = TokenPrice(currency: string, date: int, price: Option<real>)

  datatype Token = Token(symbol: string, price: real, iconUrl: string)

  const TokenIconBaseUrl: string := "https://raw.githubusercontent.com/Switcheo/token-icons/main/tokens"

  function IconUrl(symbol: string): string {
    TokenIconBaseUrl + "/" + symbol + ".svg"
  }

  // ---------------------------------------------------------------------------
  // Reduction to the latest record per currency

  /** Record `k` is the one the catalog keeps for its currency: no record of
      that currency is later, and every earlier record of it is strictly older
      (the first record that reaches the latest date). */
  ghost predicate Wins(data: seq<TokenPrice>, k: int) {
    && 0 <= k < |data|
    && forall j :: 0 <= j < |data| && data[j].currency == data[k].currency ==>
         data[j].date <= data[k].date && (j < k ==> data[j].date < data[k].date)
  }

  ghost predicate UniqueCurrencies(m: seq<TokenPrice>) {
    forall i, j :: 0 <= i < j < |m| ==> m[i].currency != m[j].currency
  }

  /** The position of the entry for `currency` in the map's insertion order. */
  function IndexOf(m: seq<TokenPrice>, currency: string): (r: Option<nat>)
    ensures r.Some? ==> r.value < |m| && m[r.value].currency == currency
    ensures r.None? ==> forall i :: 0 <= i < |m| ==> m[i].currency != currency
  {
    if |m| == 0 then None
    else if m[|m| - 1].currency == currency then Some(|m| - 1)
    else IndexOf(m[..|m| - 1], currency)
  }

  /** One `forEach` step: `tokenMap.get` then, when there is no entry or the
      new date is strictly later, `tokenMap.set` (which keeps the key's place
      in insertion order). */
  function Upsert(m: seq<TokenPrice>, item: TokenPrice): seq<TokenPrice> {
    match IndexOf(m, item.currency)
    case None => m + [item]
    case Some(i) => if item.date > m[i].date then m[i := item] else m
  }

  /** The values of `tokenMap` after the `forEach`, in insertion order. */
  function LatestByCurrency(data: seq<TokenPrice>): seq<TokenPrice> {
    if |data| == 0 then [] else Upsert(LatestByCurrency(data[..|data| - 1]), data[|data| - 1])
  }

  /** The currencies that occur in a list of records. */
  function Currencies(m: seq<TokenPrice>): set<string> {
    set i | 0 <= i < |m| :: m[i].currency
  }

  /** Every entry of `m` is the winning record of its currency. */
  ghost predicate OnlyWinners(data: seq<TokenPrice>, m: seq<TokenPrice>) {
    forall i :: 0 <= i < |m| ==> exists k :: Wins(data, k) && m[i] == data[k]
  }

  /** What the reduction promises: exactly one entry per currency of the feed,
      and that entry is the currency's winning record. */
  ghost predicate ReducesTo(data: seq<TokenPrice>, m: seq<TokenPrice>) {
    UniqueCurrencies(m) && Currencies(m) == Currencies(data) && OnlyWinners(data, m)
  }

  lemma {:induction false} LatestByCurrencyReduces(data: seq<TokenPrice>)
    ensures ReducesTo(data, LatestByCurrency(data))
  {
    if |data| > 0 {
      var init, x := data[..|data| - 1], data[|data| - 1];
      assert data == init + [x];
      LatestByCurrencyReduces(init);
      var m := LatestByCurrency(init);
      UpsertUnique(m, x);
      UpsertCurrencies(m, x);
      CurrenciesAppend(init, x);
      UpsertOnlyWinners(init, x, m);
    }
  }

  /** The winning record of every currency is among the reduced entries. */
  lemma ReducesToWinner(data: seq<TokenPrice>, m: seq<TokenPrice>, k: int)
    requires ReducesTo(data, m) && Wins(data, k)
    ensures data[k] in m
  {
    assert data[k].currency in Currencies(data);
    var i :| 0 <= i < |m| && m[i].currency == data[k].currency;
    var k' :| Wins(data, k') && m[i] == data[k'];
    WinnerUnique(data, k, k');
  }

  /** Currency `a` occurs in the feed before any record of currency `b`. */
  ghost predicate SeenBefore(data: seq<TokenPrice>, a: string, b: string) {
    exists p :: 0 <= p < |data| && data[p].currency == a && forall q :: 0 <= q <= p ==> data[q].currency != b
  }

  /** The entries of `m` list their currencies in feed order of first appearance. */
  ghost predicate InFirstSeenOrder(data: seq<TokenPrice>, m: seq<TokenPrice>) {
    forall i, j :: 0 <= i < j < |m| ==> SeenBefore(data, m[i].currency, m[j].currency)
  }

  /** The map keeps its keys in insertion order: the reduced entries list the
      currencies in the order of their first record in the feed. */
  lemma {:induction false} LatestByCurrencyFirstSeen(data: seq<TokenPrice>)
    ensures InFirstSeenOrder(data, LatestByCurrency(data))
  {
    if |data| > 0 {
      var init, x := data[..|data| - 1], data[|data| - 1];
      assert data == init + [x];
      LatestByCurrencyFirstSeen(init);
      LatestByCurrencyReduces(init);
      var m := LatestByCurrency(init);
      match IndexOf(m, x.currency)
      case None =>
        assert x.currency !in Currencies(init);
        AppendFirstSeen(init, x, m);
      case Some(p) =>
        ReplaceFirstSeen(init, x, m, p);
    }
  }

  /** A record of a new currency goes to the end, after every key already seen. */
  lemma AppendFirstSeen(data: seq<TokenPrice>, x: TokenPrice, m: seq<TokenPrice>)
    requires InFirstSeenOrder(data, m) && Currencies(m) == Currencies(data)
    requires x.currency !in Currencies(data)
    ensures InFirstSeenOrder(data + [x], m + [x])
  {
    var m' := m + [x];
    forall i, j | 0 <= i < j < |m'|
      ensures SeenBefore(data + [x], m'[i].currency, m'[j].currency)
    {
      assert m'[i] == m[i];
      if j < |m| {
        assert m'[j] == m[j];
        SeenBeforeExtend(data, x, m[i].currency, m[j].currency);
      } else {
        assert m[i].currency in Currencies(m);
        FirstBeforeNew(data, x, m[i].currency);
      }
    }
  }

  /** `tokenMap.set` on an existing key keeps its place. */
  lemma ReplaceFirstSeen(data: seq<TokenPrice>, x: TokenPrice, m: seq<TokenPrice>, p: nat)
    requires InFirstSeenOrder(data, m) && p < |m| && m[p].currency == x.currency
    ensures InFirstSeenOrder(data + [x], m[p := x]) && InFirstSeenOrder(data + [x], m)
  {
    forall i, j | 0 <= i < j < |m|
      ensures SeenBefore(data + [x], m[i].currency, m[j].currency)
    {
      SeenBeforeExtend(data, x, m[i].currency, m[j].currency);
    }
    var m' := m[p := x];
    forall i, j | 0 <= i < j < |m'|
      ensures SeenBefore(data + [x], m'[i].currency, m'[j].currency)
    {
      assert m'[i].currency == m[i].currency && m'[j].currency == m[j].currency;
    }
  }

  lemma SeenBeforeExtend(data: seq<TokenPrice>, x: TokenPrice, a: string, b: string)
    requires SeenBefore(data, a, b)
    ensures SeenBefore(data + [x], a, b)
  {
    var d := data + [x];
    var p :| 0 <= p < |data| && data[p].currency == a && forall q :: 0 <= q <= p ==> data[q].currency != b;
    assert d[p] == data[p];
    forall q | 0 <= q <= p
      ensures d[q].currency != b
    {
      assert d[q] == data[q];
    }
  }

  /** A currency already seen comes before one that first arrives now. */
  lemma FirstBeforeNew(data: seq<TokenPrice>, x: TokenPrice, a: string)
    requires a in Currencies(data) && x.currency !in Currencies(data)
    ensures SeenBefore(data + [x], a, x.currency)
  {
    var d := data + [x];
    var p :| 0 <= p < |data| && data[p].currency == a;
    assert d[p] == data[p];
    forall q | 0 <= q <= p
      ensures d[q].currency != x.currency
    {
      assert d[q] == data[q] && data[q].currency in Currencies(data);
    }
  }

  lemma CurrenciesAppend(m: seq<TokenPrice>, x: TokenPrice)
    ensures Currencies(m + [x]) == Currencies(m) + {x.currency}
  {
    var m' := m + [x];
    assert forall i :: 0 <= i < |m| ==> m'[i] == m[i];
    assert m'[|m|] == x;
  }

  lemma UpsertCurrencies(m: seq<TokenPrice>, x: TokenPrice)
    ensures Currencies(Upsert(m, x)) == Currencies(m) + {x.currency}
  {
    match IndexOf(m, x.currency)
    case None =>
      CurrenciesAppend(m, x);
    case Some(p) =>
      if x.date > m[p].date {
        var m' := m[p := x];
        assert forall i :: 0 <= i < |m| ==> m'[i].currency == m[i].currency;
        assert Currencies(m') == Currencies(m);
      }
  }

  lemma UpsertUnique(m: seq<TokenPrice>, x: TokenPrice)
    requires UniqueCurrencies(m)
    ensures UniqueCurrencies(Upsert(m, x))
  {
    match IndexOf(m, x.currency)
    case None =>
      var m' := m + [x];
      assert forall i :: 0 <= i < |m| ==> m'[i] == m[i];
    case Some(p) =>
      if x.date > m[p].date {
        var m' := m[p := x];
        assert forall i :: 0 <= i < |m| ==> m'[i].currency == m[i].currency;
      }
  }

  /** A winner keeps winning when a record of another currency arrives. */
  lemma WinsOther(data: seq<TokenPrice>, x: TokenPrice, k: int)
    requires Wins(data, k) && data[k].currency != x.currency
    ensures Wins(data + [x], k)
  {
    var d := data + [x];
    forall j | 0 <= j < |d| && d[j].currency == d[k].currency
      ensures d[j].date <= d[k].date && (j < k ==> d[j].date < d[k].date)
    {
      assert j < |data| && d[j] == data[j];
    }
  }

  /** A winner keeps winning when a record of its currency that is not later arrives. */
  lemma WinsKeep(data: seq<TokenPrice>, x: TokenPrice, k: int)
    requires Wins(data, k) && data[k].currency == x.currency && x.date <= data[k].date
    ensures Wins(data + [x], k)
  {
    var d := data + [x];
    forall j | 0 <= j < |d| && d[j].currency == d[k].currency
      ensures d[j].date <= d[k].date && (j < k ==> d[j].date < d[k].date)
    {
      if j < |data| {
        assert d[j] == data[j];
      }
    }
  }

  /** The arriving record wins when every earlier record of its currency is strictly older. */
  lemma WinsNew(data: seq<TokenPrice>, x: TokenPrice)
    requires forall j :: 0 <= j < |data| && data[j].currency == x.currency ==> data[j].date < x.date
    ensures Wins(data + [x], |data|)
  {
    var d := data + [x];
    forall j | 0 <= j < |d| && d[j].currency == d[|data|].currency
      ensures d[j].date <= d[|data|].date && (j < |data| ==> d[j].date < d[|data|].date)
    {
      if j < |data| {
        assert d[j] == data[j];
      }
    }
  }

  lemma UpsertOnlyWinners(data: seq<TokenPrice>, x: TokenPrice, m: seq<TokenPrice>)
    requires ReducesTo(data, m)
    ensures OnlyWinners(data + [x], Upsert(m, x))
  {
    var d := data + [x];
    assert d[|data|] == x;
    match IndexOf(m, x.currency)
    case None =>
      var m' := m + [x];
      assert x.currency !in Currencies(data);
      WinsNew(data, x);
      forall i | 0 <= i < |m'|
        ensures exists k :: Wins(d, k) && m'[i] == d[k]
      {
        if i < |m| {
          var k :| Wins(data, k) && m[i] == data[k];
          WinsOther(data, x, k);
          assert Wins(d, k) && m'[i] == d[k];
        } else {
          assert Wins(d, |data|) && m'[i] == d[|data|];
        }
      }
    case Some(p) =>
      var kp :| Wins(data, kp) && m[p] == data[kp];
      if x.date > m[p].date {
        var m' := m[p := x];
        WinsNew(data, x);
        forall i | 0 <= i < |m'|
          ensures exists k :: Wins(d, k) && m'[i] == d[k]
        {
          if i == p {
            assert Wins(d, |data|) && m'[i] == d[|data|];
          } else {
            var k :| Wins(data, k) && m[i] == data[k];
            assert m[i].currency != m[p].currency by {
              if i < p {} else {}
            }
            WinsOther(data, x, k);
            assert Wins(d, k) && m'[i] == d[k];
          }
        }
      } else {
        forall i | 0 <= i < |m|
          ensures exists k :: Wins(d, k) && m[i] == d[k]
        {
          var k :| Wins(data, k) && m[i] == data[k];
          if i == p {
            WinsKeep(data, x, k);
          } else {
            assert m[i].currency != m[p].currency by {
              if i < p {} else {}
            }
            WinsOther(data, x, k);
          }
          assert Wins(d, k) && m[i] == d[k];
        }
      }
  }

  // ---------------------------------------------------------------------------
  // Price filter, token construction, ordering

  /** `item.price && item.price > 0`: missing, zero, `NaN` and negative prices fail. */
  predicate HasPrice(item: TokenPrice) {
    item.price.Some? && item.price.value > 0.0
  }

  /** `.filter(item => item.price && item.price > 0)`. */
  function PricedOnly(m: seq<TokenPrice>): (r: seq<TokenPrice>)
    ensures forall item :: item in r <==> item in m && HasPrice(item)
    ensures forall i :: 0 <= i < |r| ==> HasPrice(r[i])
    ensures forall item :: multiset(r)[item] == if HasPrice(item) then multiset(m)[item] else 0
    ensures IsSubsequence(r, m)
  {
    if |m| == 0 then []
    else
      var rest := PricedOnly(m[1..]);
      assert m == [m[0]] + m[1..];
      if HasPrice(m[0]) then
        var r := [m[0]] + rest;
        assert r[1..] == rest;
        r
      else rest
  }

  function ToToken(item: TokenPrice): (t: Token)
    requires HasPrice(item)
    ensures t.symbol == item.currency && t.price == item.price.value > 0.0 && t.iconUrl == IconUrl(t.symbol)
  {
    Token(item.currency, item.price.value, IconUrl(item.currency))
  }

  function ToTokens(m: seq<TokenPrice>): (r: seq<Token>)
    requires forall i :: 0 <= i < |m| ==> HasPrice(m[i])
    ensures |r| == |m|
    ensures forall i :: 0 <= i < |m| ==> r[i] == ToToken(m[i])
  {
    if |m| == 0 then [] else [ToToken(m[0])] + ToTokens(m[1..])
  }

  function TokenSymbol(t: Token): string {
    t.symbol
  }

  /** The comparator `(a, b) => a.symbol.localeCompare(b.symbol)`; `symbolLe`
      stands for `localeCompare(...) <= 0`. */
  function BySymbol(symbolLe: (string, string) -> bool): (Token, Token) -> bool {
    (a: Token, b: Token) => symbolLe(a.symbol, b.symbol)
  }

  lemma BySymbolIsPreorder(symbolLe: (string, string) -> bool)
    requires StableSort.TotalPreorder(symbolLe)
    ensures StableSort.TotalPreorder(BySymbol(symbolLe))
  {
    var le := BySymbol(symbolLe);
    forall a: Token, b: Token
      ensures le(a, b) || le(b, a)
    {
      assert symbolLe(a.symbol, b.symbol) || symbolLe(b.symbol, a.symbol);
    }
    forall a: Token, b: Token, c: Token | le(a, b) && le(b, c)
      ensures le(a, c)
    {
      assert symbolLe(a.symbol, b.symbol) && symbolLe(b.symbol, c.symbol);
    }
  }

  /** The token one winning record yields, when its price survives the filter. */
  ghost predicate FromWinner(data: seq<TokenPrice>, t: Token) {
    exists k :: Wins(data, k) && HasPrice(data[k]) && t == ToToken(data[k])
  }

  /** The token list `fetchTokenPrices` returns for a fetched feed. */
  function Catalog(data: seq<TokenPrice>, symbolLe: (string, string) -> bool): (r: seq<Token>)
    requires StableSort.TotalPreorder(symbolLe)
    ensures forall t :: t in r <==> FromWinner(data, t)
    ensures StableSort.UniqueKeys(r, TokenSymbol)
    ensures StableSort.Sorted(r, BySymbol(symbolLe))
    ensures forall k :: StableSort.EquivalentsOf(r, k, BySymbol(symbolLe))
                     == StableSort.EquivalentsOf(ToTokens(PricedOnly(LatestByCurrency(data))), k, BySymbol(symbolLe))
    ensures forall i :: 0 <= i < |r| ==> r[i].price > 0.0 && r[i].iconUrl == IconUrl(r[i].symbol)
  {
    var latest := LatestByCurrency(data);
    var tokens := ToTokens(PricedOnly(latest));
    BySymbolIsPreorder(symbolLe);
    var sorted := StableSort.Sort(tokens, BySymbol(symbolLe));
    CatalogFacts(data, latest, tokens, sorted);
    assert StableSort.Sorted(sorted, BySymbol(symbolLe));
    sorted
  }

  lemma CatalogFacts(data: seq<TokenPrice>, latest: seq<TokenPrice>, tokens: seq<Token>, sorted: seq<Token>)
    requires latest == LatestByCurrency(data)
    requires tokens == ToTokens(PricedOnly(latest))
    requires multiset(sorted) == multiset(tokens)
    ensures forall t :: t in sorted <==> FromWinner(data, t)
    ensures StableSort.UniqueKeys(sorted, TokenSymbol)
    ensures forall i :: 0 <= i < |sorted| ==> sorted[i].price > 0.0 && sorted[i].iconUrl == IconUrl(sorted[i].symbol)
  {
    forall t
      ensures t in sorted <==> FromWinner(data, t)
    {
      assert t in sorted <==> t in multiset(tokens);
      CatalogMember(data, latest, tokens, t);
    }
    CatalogUnique(data, latest, tokens);
    StableSort.PermutationKeepsUniqueKeys(tokens, sorted, TokenSymbol);
    forall i | 0 <= i < |sorted|
      ensures sorted[i].price > 0.0 && sorted[i].iconUrl == IconUrl(sorted[i].symbol)
    {
      assert sorted[i] in multiset(tokens);
    }
  }

  /** A token is produced exactly when it comes from a winning priced record. */
  lemma CatalogMember(data: seq<TokenPrice>, latest: seq<TokenPrice>, tokens: seq<Token>, t: Token)
    requires latest == LatestByCurrency(data)
    requires tokens == ToTokens(PricedOnly(latest))
    ensures t in tokens <==> FromWinner(data, t)
  {
    LatestByCurrencyReduces(data);
    var priced := PricedOnly(latest);
    if t in tokens {
      var i :| 0 <= i < |tokens| && tokens[i] == t;
      assert priced[i] in latest;
      var p :| 0 <= p < |latest| && latest[p] == priced[i];
      var k :| Wins(data, k) && latest[p] == data[k];
      assert Wins(data, k) && HasPrice(data[k]) && t == ToToken(data[k]);
    }
    if FromWinner(data, t) {
      var k :| Wins(data, k) && HasPrice(data[k]) && t == ToToken(data[k]);
      ReducesToWinner(data, latest, k);
      assert data[k] in priced;
      var i :| 0 <= i < |priced| && priced[i] == data[k];
      assert tokens[i] == t;
    }
  }

  lemma CatalogUnique(data: seq<TokenPrice>, latest: seq<TokenPrice>, tokens: seq<Token>)
    requires latest == LatestByCurrency(data)
    requires tokens == ToTokens(PricedOnly(latest))
    ensures StableSort.UniqueKeys(tokens, TokenSymbol)
  {
    LatestByCurrencyReduces(data);
    PricedOnlyUnique(latest);
    forall i, j | 0 <= i < j < |tokens|
      ensures tokens[i].symbol != tokens[j].symbol
    {
    }
  }

  lemma {:induction false} PricedOnlyUnique(m: seq<TokenPrice>)
    requires UniqueCurrencies(m)
    ensures UniqueCurrencies(PricedOnly(m))
  {
    if |m| > 0 {
      PricedOnlyUnique(m[1..]);
      var rest := PricedOnly(m[1..]);
      forall j | 0 <= j < |rest|
        ensures rest[j].currency != m[0].currency
      {
        assert rest[j] in m[1..];
      }
    }
  }

  /** A currency is listed iff its winning record has a positive price: a
      later record without a price hides every earlier priced one. */
  lemma CatalogListsCurrency(data: seq<TokenPrice>, symbolLe: (string, string) -> bool, c: string)
    requires StableSort.TotalPreorder(symbolLe)
    ensures (exists i :: 0 <= i < |Catalog(data, symbolLe)| && Catalog(data, symbolLe)[i].symbol == c)
        <==> exists k :: Wins(data, k) && data[k].currency == c && HasPrice(data[k])
  {
    var r := Catalog(data, symbolLe);
    if exists i :: 0 <= i < |r| && r[i].symbol == c {
      var i :| 0 <= i < |r| && r[i].symbol == c;
      assert r[i] in r;
      var k :| Wins(data, k) && HasPrice(data[k]) && r[i] == ToToken(data[k]);
    }
    if exists k :: Wins(data, k) && data[k].currency == c && HasPrice(data[k]) {
      var k :| Wins(data, k) && data[k].currency == c && HasPrice(data[k]);
      assert FromWinner(data, ToToken(data[k]));
      assert ToToken(data[k]) in r;
    }
  }

  /** Two records of a currency with the same date: the first one seen stays,
      because a replacement needs a strictly later date. */
  lemma TieKeepsFirstSeen(a: TokenPrice, b: TokenPrice)
    requires a.currency == b.currency && a.date == b.date
    ensures LatestByCurrency([a, b]) == [a]
    ensures Wins([a, b], 0) && !Wins([a, b], 1)
  {
    assert [a, b][..1] == [a];
    assert [a][..0] == [];
    assert LatestByCurrency([a]) == [a];
  }

  /** At most one record of a currency wins. */
  lemma WinnerUnique(data: seq<TokenPrice>, k1: int, k2: int)
    requires Wins(data, k1) && Wins(data, k2) && data[k1].currency == data[k2].currency
    ensures k1 == k2
  {
  }

  // ---------------------------------------------------------------------------
  // Exchange rate and conversion

  /** `calculateExchangeRate`: 0 when the source price is 0, otherwise the
      ratio of the prices. The source does not guard a zero target price. */
  function ExchangeRate(from: Token, to: Token): (r: real)
    requires from.price == 0.0 || to.price != 0.0
    ensures from.price == 0.0 ==> r == 0.0
    ensures from.price != 0.0 ==> r * to.price == from.price
  {
    if from.price == 0.0 then 0.0 else from.price / to.price
  }

  /** `convertAmount`: the converted amount has the same value in the common
      pricing unit as the original amount. */
  function ConvertAmount(amount: real, from: Token, to: Token): (r: real)
    requires from.price == 0.0 || to.price != 0.0
    ensures from.price != 0.0 ==> r * to.price == amount * from.price
    ensures from.price == 0.0 ==> r == 0.0
  {
    amount * ExchangeRate(from, to)
  }

  lemma ExchangeRateReciprocal(a: Token, b: Token)
    requires a.price != 0.0 && b.price != 0.0
    ensures ExchangeRate(a, b) * ExchangeRate(b, a) == 1.0
  {
    var ab, ba := ExchangeRate(a, b), ExchangeRate(b, a);
    assert ab == a.price / b.price && ba == b.price / a.price;
  }

  /** Converting there and back returns the original amount exactly (over the reals). */
  lemma ConvertRoundTrip(x: real, a: Token, b: Token)
    requires a.price != 0.0 && b.price != 0.0
    ensures ConvertAmount(ConvertAmount(x, a, b), b, a) == x
  {
    var y := ConvertAmount(x, a, b);
    var z := ConvertAmount(y, b, a);
    assert y * b.price == x * a.price;
    assert z * a.price == y * b.price;
  }
}

=== FILE: wallet_page.dfy ===
/** The wallet-balance list (src/problem3/RefactoredComponent.tsx): balances on
    a known blockchain with a positive amount, ordered by blockchain priority
    (highest first, ties in input order), each with its USD value. */
module WalletPage {
  import opened Seqs
  import opened JsNumber
  import opened Wrappers
  import StableSort

  datatype WalletBalance = WalletBalance(currency: string, amount: real, blockchain: string)

  datatype FormattedWalletBalance = FormattedWalletBalance(
    currency: string, amount: real, blockchain: string, formatted: string, usdValue: real)

  const BlockchainPriorities: map<string, int> :=
    map["Osmosis" := 100, "Ethereum" := 50, "Arbitrum" := 30, "Zilliqa" := 20, "Neo" := 20]

  const DefaultPriority := -99

  const MinValidBalance := 0.0

  /** `getPriority`: the table entry, or -99 for a blockchain not in the table. */
  function Priority(blockchain: string): (p: int)
    ensures p > DefaultPriority <==> blockchain in BlockchainPriorities
  {
    if blockchain in BlockchainPriorities then BlockchainPriorities[blockchain] else DefaultPriority
  }

  lemma PriorityTable()
    ensures Priority("Osmosis") == 100 && Priority("Ethereum") == 50 && Priority("Arbitrum") == 30
    ensures Priority("Zilliqa") == 20 && Priority("Neo") == 20
    ensures forall b :: b !in {"Osmosis", "Ethereum", "Arbitrum", "Zilliqa", "Neo"} ==> Priority(b) == -99
  {
  }

  /** The filter: a known blockchain and a positive amount. */
  predicate Keep(b: WalletBalance) {
    Priority(b.blockchain) > DefaultPriority && b.amount > MinValidBalance
  }

  function FilterBalances(s: seq<WalletBalance>): (r: seq<WalletBalance>)
    ensures forall b :: b in r <==> b in s && Keep(b)
    ensures forall i :: 0 <= i < |r| ==> Keep(r[i])
    ensures forall b :: multiset(r)[b] == if Keep(b) then multiset(s)[b] else 0
    ensures IsSubsequence(r, s)
  {
    if |s| == 0 then []
    else
      var rest := FilterBalances(s[1..]);
      assert s == [s[0]] + s[1..];
      assert forall b :: b in s <==> b == s[0] || b in s[1..];
      if Keep(s[0]) then
        var r := [s[0]] + rest;
        assert r[1..] == rest;
        r
      else rest
  }

  /** The comparator `rightPriority - leftPriority`: `lhs` may stay in front
      of `rhs` when its priority is at least as high. */
  function ByPriority(): (WalletBalance, WalletBalance) -> bool {
    (lhs: WalletBalance, rhs: WalletBalance) => Priority(lhs.blockchain) >= Priority(rhs.blockchain)
  }

  lemma ByPriorityIsPreorder()
    ensures StableSort.TotalPreorder(ByPriority())
  {
  }

  /** The map step: the balance, its amount to two decimals and its USD value,
      a missing price counting as 0. */
  function FormatBalance(b: WalletBalance, prices: map<string, real>): (r: FormattedWalletBalance)
    ensures Base(r) == b
    ensures r.usdValue == UsdValue(prices, b)
    ensures r.formatted == FormatAmount(b.amount)
  {
    FormattedWalletBalance(b.currency, b.amount, b.blockchain, FormatAmount(b.amount), UsdValue(prices, b))
  }

  /** The price of the balance's currency times its amount. */
  function UsdValue(prices: map<string, real>, b: WalletBalance): real {
    PriceOf(prices, b.currency) * b.amount
  }

  /** `prices[currency] ?? 0`. */
  function PriceOf(prices: map<string, real>, currency: string): real {
    if currency in prices then prices[currency] else 0.0
  }

  /** `formatAmount`: the amount with two decimals. */
  function FormatAmount(amount: real): string {
    ToFixed(amount, 2)
  }

  /** The balance a formatted row came from. */
  function Base(r: FormattedWalletBalance): WalletBalance {
    WalletBalance(r.currency, r.amount, r.blockchain)
  }

  function Bases(rows: seq<FormattedWalletBalance>): (s: seq<WalletBalance>)
    ensures |s| == |rows| && forall i :: 0 <= i < |rows| ==> s[i] == Base(rows[i])
  {
    if |rows| == 0 then [] else [Base(rows[0])] + Bases(rows[1..])
  }

  function FormatAll(s: seq<WalletBalance>, prices: map<string, real>): (r: seq<FormattedWalletBalance>)
    ensures |r| == |s| && forall i :: 0 <= i < |s| ==> r[i] == FormatBalance(s[i], prices)
  {
    if |s| == 0 then [] else [FormatBalance(s[0], prices)] + FormatAll(s[1..], prices)
  }

  /** `sortedAndFormattedBalances`; `None` stands for a missing or non-array
      balance list. */
  function SortedAndFormatted(balances: Option<seq<WalletBalance>>, prices: map<string, real>): (r: seq<FormattedWalletBalance>)
    ensures balances.None? ==> r == []
  {
    match balances
    case None => []
    case Some(s) =>
      ByPriorityIsPreorder();
      FormatAll(StableSort.Sort(FilterBalances(s), ByPriority()), prices)
  }

  /** Stripped of their display fields, the rows are the kept balances sorted
      by priority. */
  lemma RowsAreSortedKept(s: seq<WalletBalance>, prices: map<string, real>)
    ensures StableSort.TotalPreorder(ByPriority())
    ensures Bases(SortedAndFormatted(Some(s), prices)) == StableSort.Sort(FilterBalances(s), ByPriority())
  {
    ByPriorityIsPreorder();
  }

  /** The rows are the kept balances, each as often as in the input: nothing
      lost, nothing duplicated. */
  lemma RowsPermuteKept(s: seq<WalletBalance>, prices: map<string, real>)
    ensures multiset(Bases(SortedAndFormatted(Some(s), prices))) == multiset(FilterBalances(s))
    ensures forall b :: b in Bases(SortedAndFormatted(Some(s), prices)) <==> b in s && Keep(b)
  {
    RowsAreSortedKept(s, prices);
    var sorted := Bases(SortedAndFormatted(Some(s), prices));
    var kept := FilterBalances(s);
    assert forall b :: b in sorted <==> b in multiset(sorted);
    assert forall b :: b in kept <==> b in multiset(kept);
  }

  /** Rows come highest priority first. */
  lemma RowsByPriority(s: seq<WalletBalance>, prices: map<string, real>)
    ensures var r := SortedAndFormatted(Some(s), prices);
            forall i, j :: 0 <= i < j < |r| ==> Priority(r[i].blockchain) >= Priority(r[j].blockchain)
  {
    RowsAreSortedKept(s, prices);
    var r := SortedAndFormatted(Some(s), prices);
    var sorted := Bases(r);
    forall i, j | 0 <= i < j < |r|
      ensures Priority(r[i].blockchain) >= Priority(r[j].blockchain)
    {
      assert ByPriority()(sorted[i], sorted[j]);
    }
  }

  /** Balances of equal priority keep their input order. */
  lemma RowsStable(s: seq<WalletBalance>, prices: map<string, real>)
    ensures forall k :: StableSort.EquivalentsOf(Bases(SortedAndFormatted(Some(s), prices)), k, ByPriority())
                     == StableSort.EquivalentsOf(FilterBalances(s), k, ByPriority())
  {
    RowsAreSortedKept(s, prices);
  }

  /** Every row carries the USD value of its amount and the amount to two
      decimals. */
  lemma RowsValued(s: seq<WalletBalance>, prices: map<string, real>)
    ensures var r := SortedAndFormatted(Some(s), prices);
            forall i :: 0 <= i < |r| ==>
              r[i].usdValue == UsdValue(prices, Base(r[i]))
              && r[i].formatted == FormatAmount(r[i].amount)
  {
    ByPriorityIsPreorder();
    var sorted := StableSort.Sort(FilterBalances(s), ByPriority());
    var r := FormatAll(sorted, prices);
    assert r == SortedAndFormatted(Some(s), prices);
    forall i | 0 <= i < |r|
      ensures r[i].usdValue == UsdValue(prices, Base(r[i]))
      ensures r[i].formatted == FormatAmount(r[i].amount)
    {
      var b := sorted[i];
      assert r[i] == FormatBalance(b, prices);
    }
  }
}

=== FILE: wallet_service.dfy ===
/** Balance lookup (`getTokenBalance` in
    src/problem2/src/services/walletService.ts): the first wallet entry with
    the requested symbol, or 0. */
module WalletService {

  datatype TokenBalance = TokenBalance(symbol: string, balance: real)

  /** Index of the first entry with symbol `symbol`, or |wallet| when none has it
      (the position `Array.prototype.find` stops at). */
  function FindIndex(wallet: seq<TokenBalance>, symbol: string): (k: nat)
    ensures k <= |wallet|
    ensures forall j :: 0 <= j < k ==> wallet[j].symbol != symbol
    ensures k < |wallet| ==> wallet[k].symbol == symbol
  {
    if |wallet| == 0 then 0
    else if wallet[0].symbol == symbol then 0
    else 1 + FindIndex(wallet[1..], symbol)
  }

  /** `getTokenBalance(wallet, symbol)`: `find(...)?.balance || 0`. A found
      balance of 0 (falsy) and a missing entry both give 0, so `|| 0` changes
      nothing for an exact number model. */
  function GetTokenBalance(wallet: seq<TokenBalance>, symbol: string): (r: real)
    ensures (forall j :: 0 <= j < |wallet| ==> wallet[j].symbol != symbol) ==> r == 0.0
    ensures forall k :: 0 <= k < |wallet| && wallet[k].symbol == symbol
                        && (forall j :: 0 <= j < k ==> wallet[j].symbol != symbol)
                        ==> r == wallet[k].balance
  {
    var k := FindIndex(wallet, symbol);
    if k < |wallet| then wallet[k].balance else 0.0
  }

  /** Entries in front with other symbols do not affect the lookup. */
  lemma {:induction false} OtherSymbolsIrrelevant(front: seq<TokenBalance>, wallet: seq<TokenBalance>, symbol: string)
    requires forall j :: 0 <= j < |front| ==> front[j].symbol != symbol
    ensures GetTokenBalance(front + wallet, symbol) == GetTokenBalance(wallet, symbol)
  {
    var w := front + wallet;
    var k := FindIndex(wallet, symbol);
    if k < |wallet| {
      assert w[|front| + k] == wallet[k];
      assert forall j :: 0 <= j < |front| + k ==> w[j].symbol != symbol by {
        forall j | 0 <= j < |front| + k
          ensures w[j].symbol != symbol
        {
          if j >= |front| {
            assert w[j] == wallet[j - |front|];
          }
        }
      }
    } else {
      assert forall j :: 0 <= j < |w| ==> w[j].symbol != symbol by {
        forall j | 0 <= j < |w|
          ensures w[j].symbol != symbol
        {
          if j >= |front| {
            assert w[j] == wallet[j - |front|];
          }
        }
      }
    }
  }

  /** Entries after the first match do not affect the lookup. */
  lemma LaterEntriesIrrelevant(wallet: seq<TokenBalance>, rest: seq<TokenBalance>, symbol: string)
    requires exists j :: 0 <= j < |wallet| && wallet[j].symbol == symbol
    ensures GetTokenBalance(wallet + rest, symbol) == GetTokenBalance(wallet, symbol)
  {
    var w := wallet + rest;
    var k := FindIndex(wallet, symbol);
    assert w[k] == wallet[k];
    assert forall j :: 0 <= j < k ==> w[j] == wallet[j];
  }

  /** A wallet holding no negative balances yields no negative result. */
  lemma BalanceNonNegative(wallet: seq<TokenBalance>, symbol: string)
    requires forall j :: 0 <= j < |wallet| ==> wallet[j].balance >= 0.0
    ensures GetTokenBalance(wallet, symbol) >= 0.0
  {
  }
}

=== FILE: wrappers.dfy ===
/** The Option datatype used wherever the source has `undefined`, `null`,
    `NaN` or "not found" as a distinguished value. */
module Wrappers {

  datatype Option<+T> = None | Some(value: T) {

    /** The wrapped value, or `default` when there is none (the `?? d` / `|| d` idiom). */
    function GetOr(default: T): T {
      match this
      case Some(v) => v
      case None => default
    }
  }
}
